=== FILE: README.md ===
# (M,N,K)-game decision engines, modelled in Dafny

This project models the decision core of an (M,N,K)-game agent, a
generalised tic-tac-toe on an M×N board where K in a row wins. Properties
of the model are proved with the Dafny verifier. The core has four parts.

- **`GameTree`, the heuristic engine.** It builds a depth-limited tree
  (`MAX_DEPTH` = 6) of candidate moves. Candidates are the free squares
  one king step from any cell on the path to the root, ranked by a
  distance-to-win oracle, with forward pruning: the loop stops once
  `MIN_EVAL` children exist and the next candidate is not urgent. Leaves
  get terminal or heuristic scores. Alpha-beta values the tree and flags
  the children it evaluated. The engine re-roots on every real move and
  grows the surviving leaves by one ply.
- **`DecisionTree`, the exhaustive engine.** It builds the whole game tree
  over a 2-D grid with its own K-in-a-row test. Its alpha-beta deletes the
  children after a cutoff. The target `curr_target` starts at 2 and grows
  whenever play reaches a childless root.
- **`Node`**: the tree vertex. The parent pointer becomes a list of
  ancestors, nearest first.
- **`Matrix`**: an occupancy grid with a size counter and extraction of
  rows, columns and diagonals.

Modules, leaves first:

- `Types`: marks, game states, cells, `Option`/`Result`.
- `Settings`: M, N, K, who moves first, and the derived constants.
- `Nodes`, `Matrices`.
- `Boards`: the position oracle, abstract.
- `Candidates`: neighbours, ranking and the priority queue.
- `GameSearch`: flagging alpha-beta.
- `GameTrees`: scores and tree construction.
- `GameEngine`: turn management of the heuristic engine.
- `Alignments`: the exhaustive engine's line test.
- `DecisionTrees`: deleting alpha-beta and exhaustive construction.
- `DecisionEngine`: turn management of the exhaustive engine.

Mutation becomes value passing. Each operation returns the updated node,
board or engine state. The oracle board that the heuristic engine sets and
clears around each recursive call is threaded through and proved to come
back unchanged. A Java `NullPointerException` or `NoSuchElementException`
on a missing root or an empty child list becomes `Err(NoTree)` or
`Err(NoChildren)`. Any state the code changes before it throws is listed under
"Left out".

Some behaviour is modelled as written even where one might expect
otherwise:

- **Min/max convention.** In the heuristic engine, the flag `myNode = true`
  drives a minimising step.
- **Heuristic range.** A heuristic value can reach ±K itself, not only
  values strictly inside (−K, K). It still stays strictly between the loss
  and win scores (`GameTrees.HeuristicBelowTerminal`).
- **Choosing the agent's move.** `nextMove` starts from the first child
  whether or not that child's flag is up. Only later children need the
  flag to replace it.
- **Re-rooting keeps the old root.** The old root is not discarded. It
  keeps exactly the chosen child and stays reachable as the new root's
  parent, which is why the path to the root holds the whole game.
- **No check that the opponent's square is free.** `setOpponentMove` does
  not check it.
- **The exhaustive engine may re-root on a move that was not played.** When
  the opponent's move is not among the root's children (pruning may have
  deleted it), the engine moves to its best child instead.
- **The exhaustive engine's win test.** It reports a line for whatever the
  played cell holds. When that cell is not the agent's, the result is a
  loss.

## Model

| member | source | states |
|---|---|---|
| `Nodes.NewNode` | src/mnkgame/Node.java:15-23 | a fresh node has the given move, no children, score 0 and both flags down |
| `Nodes.MarkedCells` | src/mnkgame/Node.java:29-40 | the path reads the node's own move first, then one move per ancestor, nearest first; its length is the number of ancestors plus one |
| `Nodes.SetSelectedChild` | src/mnkgame/Node.java:46-49 | afterwards the children are exactly `[child]`, and move, score and flags are unchanged |
| `Nodes.IsLeaf` | src/mnkgame/Node.java:56-58 | a node is a leaf exactly when it has no children |
| `Matrices.NewMatrix` | src/mnkgame/Matrix.java:10-22 | a new grid has the given dimensions, every cell free, size 0, and a counter that agrees with the grid |
| `Matrices.SetAt` | src/mnkgame/Matrix.java:24-33 | a real mark is stored and the counter goes up; a missing or free state clears the cell and the counter goes down unconditionally; no other cell changes |
| `Matrices.GetAt` | src/mnkgame/Matrix.java:35-38 | the result is missing exactly off the grid, and is the stored state on it |
| `Matrices.RemoveAt` | src/mnkgame/Matrix.java:40-45 | the cell becomes free; the counter drops only if the cell was occupied; no other cell changes |
| `Matrices.Size` | src/mnkgame/Matrix.java:47-49 | on a consistent grid the size is the number of occupied cells |
| `Matrices.SetOnFreeKeepsCount` | src/mnkgame/Matrix.java:24-28 | placing a mark on a free cell keeps the counter equal to the number of occupied cells |
| `Matrices.RemoveKeepsCount` | src/mnkgame/Matrix.java:40-45 | removing keeps the counter equal to the number of occupied cells |
| `Matrices.RemoveTwiceIsRemoveOnce` | src/mnkgame/Matrix.java:40-45 | a second removal of the same cell is a no-op |
| `Matrices.SetFreeOnFreeBreaksCount` | src/mnkgame/Matrix.java:29-32 | clearing a free cell through `setAt` leaves the counter disagreeing with the grid |
| `Matrices.GetRowAt` | src/mnkgame/Matrix.java:55-61 | the row has `columns` elements, element x being the cell at column x of the start row |
| `Matrices.GetColumnAt` | src/mnkgame/Matrix.java:67-73 | the column has `rows` elements, element y being the cell at row y of the start column |
| `Matrices.GetMainDiagonalAt` | src/mnkgame/Matrix.java:79-96 | the whole in-bounds (+1,+1) diagonal through the start cell, from the edge at column 0 or row 0, with the start cell at index min(x, y) |
| `Matrices.GetSecondaryDiagonalAt` | src/mnkgame/Matrix.java:102-119 | the whole in-bounds (−1,+1) anti-diagonal through the start cell, from the last column or row 0, with the start cell included |
| `Boards.PlaceThenRemove` | src/mnkgame/GameTree.java:219-221 | placing on a free square and removing it again restores the oracle board |
| `Boards.RemoveThenPlace` | src/mnkgame/GameTree.java:113-117 | lifting a square's mark and putting the same mark back restores the oracle board |
| `Candidates.Around` | src/mnkgame/GameTree.java:164-168 | the eight offsets give exactly the squares one king step from the cell |
| `Candidates.Neighbours` | src/mnkgame/GameTree.java:160-181 | a square is listed exactly when it is one king step from some cell of the path |
| `Candidates.Select` | src/mnkgame/GameTree.java:170-176 | each square tried is kept once, if in bounds and free and not yet seen, with urgency min(myDist, oppDist); every such square is kept |
| `Candidates.GetInterestingPositions` | src/mnkgame/GameTree.java:156-184 | each ranked square is in bounds, free and one king step from the path, appears once, and carries urgency min(myDist, oppDist) |
| `Candidates.InterestingPositionsComplete` | src/mnkgame/GameTree.java:156-184 | conversely, every in-bounds free square one king step from the path is ranked |
| `Candidates.FirstMinIndex` | src/mnkgame/GameTree.java:208-210 | the queue head is a candidate of least urgency, the first such |
| `Candidates.Poll` | src/mnkgame/GameTree.java:210 | polling returns a least-urgency candidate and the queue minus exactly that candidate |
| `GameSearch.AlphaBeta` | src/mnkgame/GameTree.java:55-58 | a leaf is returned unchanged with its stored score; otherwise the value is written to the node, and the move, flags and number of children are kept |
| `GameSearch.VisitMeetsSpec` | src/mnkgame/GameTree.java:61-83 | the child loop flags a non-empty prefix; each flagged child is that child as the recursive alpha-beta call leaves it, flag raised; the value is the min (or max) of the start value and the flagged children's scores; there is no cutoff before the last flagged child and one there unless all were visited; unflagged children are untouched |
| `GameSearch.AlphaBetaInternal` | src/mnkgame/GameTree.java:55-87 | on an internal node the value is the min from M·N+1 (`myNode`) or the max from −M·N−1 over the flagged prefix, whose children are the recursive evaluations, with the flags as above |
| `GameSearch.AlphaBetaFailSoft` | src/mnkgame/GameTree.java:55-87 | against plain minimax over the same tree (leaves keep their scores, `myNode` minimising): a value strictly inside the window is the minimax value, one at or below alpha is an upper bound of it, one at or above beta a lower bound |
| `GameSearch.AlphaBetaKeepsTree` | src/mnkgame/GameTree.java:55-87 | alpha-beta changes scores and flags only: the tree of moves below the node and its minimax value are the same afterwards |
| `GameSearch.MinimaxFromStep` | src/mnkgame/GameTree.java:65-74 | folding the children's minimax values commutes with one more min (or max) step on the start value |
| `GameSearch.FoldBound` | src/mnkgame/GameTree.java:65-83 | a minimising pass never rises above its start value and a maximising one never falls below it |
| `GameTrees.HeuristicScore` | src/mnkgame/GameTree.java:106-128 | with p = K − myDist and o = K − oppDist, read with the node's own mark lifted, the score is p when p > o and −o otherwise; the board comes back unchanged |
| `GameTrees.HeuristicBelowTerminal` | src/mnkgame/GameTree.java:94-128 | for distances in [0, K] a heuristic score lies in [−K, K], strictly between the loss score −(K+1) and the win score K+1 |
| `GameTrees.CreateTree` | src/mnkgame/GameTree.java:193-227 | a decided position gets `endState`, no new children and score K+1, −(K+1) or 0; an open one at depth 0 gets the heuristic score and no children; the board comes back unchanged; a grown tree alternates marks level by level and is no deeper than `depth` |
| `GameTrees.CreateTreeGrows` | src/mnkgame/GameTree.java:203-224 | below an open node with plies left, the new children are exactly those the candidate loop makes |
| `GameTrees.CreateTreeSpawns` | src/mnkgame/GameTree.java:203-224 | a childless open node with plies left gets exactly one child per polled candidate, in polling order, each with the mover's mark on the candidate's square |
| `GameTrees.PolledNonEmpty` | src/mnkgame/GameTree.java:204-210 | when any in-bounds free square lies one king step from the path, at least one candidate is polled |
| `GameTrees.Polled` | src/mnkgame/GameTree.java:204-210 | the polled squares are distinct, in bounds, free and next to the path, and are drawn from the ranked squares under the stopping rule |
| `GameTrees.Drain` | src/mnkgame/GameTree.java:206-210 | polling goes in non-decreasing urgency, never skips a more urgent candidate, and leaves candidates behind only once `MIN_EVAL` children exist and every remaining urgency exceeds `SCORE_THRESHOLD`; conversely, every candidate polled once `MIN_EVAL` children exist has urgency at most `SCORE_THRESHOLD`, so the loop stopped at the first one above it |
| `GameTrees.Grow` | src/mnkgame/GameTree.java:204-223 | one child per polled candidate in polling order, each with the mover's mark on a distinct free in-bounds square next to the path; the board comes back unchanged |
| `GameTrees.Expand` | src/mnkgame/GameTree.java:210-222 | each child stands on its candidate's square with the mover's mark; every `setAt` is undone by a `removeAt`, so the board comes back unchanged |
| `GameTrees.ExpandRecurses` | src/mnkgame/GameTree.java:210-222 | child k is exactly the recursive `createTree` result for candidate k: a new node with the mover's mark on its square, built with the other side to move, one ply fewer, on the board with that mark set |
| `GameTrees.CreateTreeRecurses` | src/mnkgame/GameTree.java:203-224 | below a childless open node with plies left, the children are, in polling order, the recursive `createTree` results for the polled candidates as `ExpandRecurses` states them |
| `GameEngine.ExtendNode` | src/mnkgame/GameTree.java:248-256 | on the board rebuilt from the path, a decided node becomes a terminal leaf with its terminal score; an open leaf with plies left gets one child per polled candidate, with the mark of the side that did not play it, each child being the recursive `createTree` result for its candidate on that board; a childless node's tree alternates marks from that side and is no deeper than the given depth |
| `GameEngine.ExtendLeaves` | src/mnkgame/GameTree.java:263-272 | at every depth of the tree (`LeavesExtended`): a terminal leaf is untouched, every other leaf is replaced by `ExtendNode` of it grown one ply on its own path, and an inner node keeps move, score, flags and child count while each child is extended in turn with the node's move added to the path |
| `GameEngine.LeafGains` | src/mnkgame/GameTree.java:263-272 | a non-terminal leaf that is open on the rebuilt board, with an in-bounds free square one king step from its path, gains at least one child |
| `GameEngine.ExtendLeavesAddsOnePly` | src/mnkgame/GameTree.java:263-272 | extending the leaves deepens the tree by at most one ply |
| `GameEngine.Evaluate` | src/mnkgame/GameTree.java:300 | re-evaluating a root over the (loss, win) window keeps its tree of moves and minimax value (`Revalued`), and leaves a score sound for that minimax value in the fail-soft sense |
| `GameEngine.Advance` | src/mnkgame/GameTree.java:297-300 | the chosen child, carried forward as root: a terminal leaf stays as it is; a growing leaf becomes terminal when decided on the rebuilt board and otherwise gets one child per polled candidate; an inner node keeps its children's moves; the result has the moves and the minimax value of the tree `ExtendLeaves` grows from the child (`Revalued`), and its score is sound for that value, so it is fixed by the grown tree's terminal and heuristic leaves |
| `GameEngine.Plant` | src/mnkgame/GameTree.java:290-294 | a new node for an unforeseen move, grown `MAX_DEPTH` plies and evaluated: as above, plus alternating marks from the side that did not play it, no path longer than `MAX_DEPTH`, and the moves and minimax value of the tree `ExtendNode` grows to `MAX_DEPTH`, for which the score is sound |
| `GameEngine.FirstTree` | src/mnkgame/GameTree.java:233-239 | the opening move grown on the board holding only it: terminal when decided, otherwise one child per polled candidate, each the recursive `createTree` result for its candidate; marks alternate from the second player; no path longer than `MAX_DEPTH` |
| `GameEngine.Generate` | src/mnkgame/GameTree.java:233-241 | the first tree is rooted at the opening move with an empty history; it has the moves and the minimax value of the whole tree `FirstTree` grew (`Alike`), so every subtree the recursive construction built is kept, and its score is sound for that value with the first player's convention |
| `GameEngine.FirstValued` | src/mnkgame/GameTree.java:239-240 | the first tree after alpha-beta over the (loss, win) window: still rooted at the opening move, with what `FirstTree` states of it, the same moves and minimax value, and a fail-soft score |
| `GameEngine.FindChild` | src/mnkgame/GameTree.java:282-287 | finds the first child on the move's square, or reports that none exists |
| `GameEngine.SetOpponentMove` | src/mnkgame/GameTree.java:279-303 | an error exactly when there is no tree; otherwise the old root keeps exactly one child and joins the history, so the path grows by the new root's move (`Rerooted`); when some child is on the move's square, the new root is the first such child carried forward as `Advance` states, valued as the tree `ExtendLeaves` grows from it (`OnMatch`); when none is, it is a new node for the move grown `MAX_DEPTH` plies and valued as that tree, as `Plant` states (`OnNewMove`) |
| `GameEngine.PlantReroots` | src/mnkgame/GameTree.java:289-294 | re-rooting on a planted node for an unmatched move satisfies both `Rerooted` and `OnNewMove` |
| `GameEngine.AdvanceReroots` | src/mnkgame/GameTree.java:296-300 | re-rooting on the first child on the move's square satisfies both `Rerooted` and `OnMatch` |
| `GameEngine.TrailPath` | src/mnkgame/Node.java:29-40 | after re-rooting, the marked cells read the new root's move, then the old root's, then the earlier history |
| `GameEngine.BestChild` | src/mnkgame/GameTree.java:311-318 | the scan starts at the first child and switches only to a flagged child of strictly greater score |
| `GameEngine.BestChildUnique` | src/mnkgame/GameTree.java:311-318 | at most one child meets that choice |
| `GameEngine.NextMove` | src/mnkgame/GameTree.java:310-339 | without a tree or without children, an error; otherwise the best child becomes the root, carried forward as `Advance` describes and valued as the tree `ExtendLeaves` grows from it, the old root keeps exactly it, and its move is returned and added to the path |
| `Alignments.BoundsAgree` | src/mnkgame/DecisionTree.java:44-46 | the exhaustive engine's (row, column) bounds test accepts the same squares as the heuristic engine's (column, row) one |
| `Alignments.ForwardSpec` | src/mnkgame/DecisionTree.java:235-238 | a forward scan counts consecutive cells with the mark, stopping at the first other cell, the edge, or `curr_target` steps |
| `Alignments.BackwardSpec` | src/mnkgame/DecisionTree.java:231-234 | the same for the backward scan |
| `Alignments.AlignedIffLine` | src/mnkgame/DecisionTree.java:229-275 | the capped scans in the four directions reach `curr_target` exactly when some contiguous run of that many equal marks passes through the cell |
| `Alignments.BoardStatus` | src/mnkgame/DecisionTree.java:216-283 | with such a run the result is a win when the cell is the agent's and a loss otherwise; without one it is a draw exactly when the size counter equals rows·columns, and open otherwise |
| `DecisionTrees.AlphaBeta` | src/mnkgame/DecisionTree.java:48-85 | a leaf is unchanged; otherwise the value is the min (or max) from M·N+1 (or −M·N−1) over the kept children, written to the node; the kept children are a non-empty prefix of the old ones; no move leaves the grid |
| `DecisionTrees.KeptAreEvaluated` | src/mnkgame/DecisionTree.java:55-80 | every child an internal node keeps is that child as the recursive alpha-beta call leaves it; no stale subtree survives |
| `DecisionTrees.AlphaBetaFailSoft` | src/mnkgame/DecisionTree.java:48-85 | the deleting alpha-beta's value meets the fail-soft guarantee against plain minimax over the tree |
| `DecisionTrees.Visit` | src/mnkgame/DecisionTree.java:55-80 | the loop keeps the children up to the one at the cutoff, in order, and its value is the fold of their scores |
| `DecisionTrees.AgreesWithFlagged` | src/mnkgame/DecisionTree.java:48-85 | deleting after the cutoff gives the same value as the flagging alpha-beta, and keeps exactly as many children as that one flags |
| `DecisionTrees.NearerIsStronger` | src/mnkgame/DecisionTree.java:134-142 | a nearer win scores strictly higher and a nearer loss strictly lower; with fewer plies than cells, a win beats a draw (0), which beats a loss |
| `DecisionTrees.MarkShrinksFree` | src/mnkgame/DecisionTree.java:105-111 | marking a free square shrinks the set of free squares, so the exhaustive search ends |
| `DecisionTrees.CreateTree` | src/mnkgame/DecisionTree.java:88-146 | a decided position gets `maxScore − depth`, `minScore + depth` or 0 and nothing else changes; in an open one each child is a move of the side to move on a distinct free in-bounds square next to the path; the kept children are a prefix of the tried squares arranged with the central ones first in reverse trial order, then the edge ones in trial order; there is at least one whenever a square could be tried; the score is the min (or max) over the kept children |
| `DecisionTrees.Develop` | src/mnkgame/DecisionTree.java:91-132 | an open position gets a valid, distinct child list that is a non-empty prefix (when any square could be tried) of the arranged trial order, and the min (or max) of the kept children's scores; no move leaves the grid; each kept child's subtree is given by `DecisionTrees.DevelopRecurses` |
| `DecisionTrees.BuildRecurses` | src/mnkgame/DecisionTree.java:104-119 | every child the loop adds is the recursive `createTree` result for its square: a new node with the mover's mark, built with the other side to move, one ply deeper, on the grid with that mark put and the size one larger |
| `DecisionTrees.DevelopRecurses` | src/mnkgame/DecisionTree.java:91-132 | the built children are those recursive results, and each child kept after alpha-beta is the built child at its index as the recursive alpha-beta call leaves it |
| `DecisionTrees.CreateTreeRecurses` | src/mnkgame/DecisionTree.java:88-146 | in an open position the children of the result are the recursive `createTree` results for the tried squares, each evaluated by alpha-beta, as `DevelopRecurses` states |
| `DecisionTrees.KeptMoves` | src/mnkgame/DecisionTree.java:131 | the children alpha-beta keeps after deleting the tail still form a valid, distinct, central-first child list, a prefix of the arranged trial order, non-empty when the full list was |
| `DecisionTrees.Build` | src/mnkgame/DecisionTree.java:96-130 | there is a child for exactly the squares tried before or tried here and open; each is valid and they are distinct; the squares tried here that are central come first, in reverse trial order, then the earlier children, then the edge ones in trial order |
| `DecisionTrees.BuildOrderStep` | src/mnkgame/DecisionTree.java:113-118 | trying one more square, appended when on the edge and prepended otherwise, keeps that arrangement |
| `DecisionTrees.AppendChild` | src/mnkgame/DecisionTree.java:113-114 | appending an edge child on a new square keeps the child list's invariant |
| `DecisionTrees.PrependChild` | src/mnkgame/DecisionTree.java:116-118 | prepending a central child on a new square keeps it too |
| `DecisionEngine.NewDTree` | src/mnkgame/DecisionTree.java:23-38 | no tree, empty history, `curr_target` = 2 |
| `DecisionEngine.Fill` | src/mnkgame/DecisionTree.java:159-166 | every path square is taken on the rebuilt grid, a square holds the state of the last path cell written to it, and every other square is untouched |
| `DecisionEngine.GenerateFirst` | src/mnkgame/DecisionTree.java:148-155 | the root is the opening move, grown on the grid holding only it with size 1: terminal with its score when decided, otherwise expanded as `CreateTree` states, each kept child being the whole recursive construction for its square as alpha-beta leaves it (`DecisionTrees.CreateTreeRecurses`) with the second player to move; its children are one king step away |
| `DecisionEngine.FirstRoot` | src/mnkgame/DecisionTree.java:151-154 | the opening move grown on the grid holding only it, size 1, the second player to move: terminal with its score when decided, otherwise expanded with each kept child the recursive construction for its square; every child is one king step away |
| `DecisionEngine.Regrow` | src/mnkgame/DecisionTree.java:159-168 | a childless root regrown on the grid of its whole path with the path's length as size and the side that did not play it to move: terminal when decided, otherwise expanded with each kept child the recursive construction for its square, as alpha-beta leaves it |
| `DecisionEngine.Regenerate` | src/mnkgame/DecisionTree.java:157-169 | the root keeps its move and history and is regrown on the grid of its whole path, with the path's length as size and the side that did not play it to move: terminal when decided, otherwise expanded as `CreateTree` states, each kept child being the whole recursive construction for its square as alpha-beta leaves it (`DecisionTrees.CreateTreeRecurses`) |
| `DecisionEngine.Refresh` | src/mnkgame/DecisionTree.java:172-175 | a childless root with `curr_target` below K raises it by one and is regrown, as `Regenerate` states (down to every kept child's recursive subtree), under the raised target; otherwise nothing changes; `curr_target` never exceeds max(2, K) |
| `DecisionEngine.Scan` | src/mnkgame/DecisionTree.java:177-187 | the scan stops at the first child on the move's square, else ends on the first child of greatest score |
| `DecisionEngine.SetOpponentMove` | src/mnkgame/DecisionTree.java:171-191 | after the refresh, the new root is the first matching child, or the first best child when none matches; errors on no tree or no children; the history grows by the old root's move |
| `DecisionEngine.Strongest` | src/mnkgame/DecisionTree.java:201-207 | the scan ends on the first child of greatest score: no child scores higher, and every earlier child scores strictly lower |
| `DecisionEngine.NextMove` | src/mnkgame/DecisionTree.java:195-213 | after the refresh, the new root and the returned move are the first child of strictly greatest score; errors on no tree or no children |

## Left out

- The match harness (`mnkgame/MNKPlayerTesterPlayUntil.java`) is not part of this model. It is threads, timeouts, reflection, audio and console output.
- `DecisionTree.print`, `Matrix.toString`, the `if (false)` debug block in `GameTree.nextMove`, and all commented-out code are left out. They are output or dead code.
- The position oracle `BoardStatus` is not part of this model. Its status and distance answers are uninterpreted functions of the occupancy. Because of that, `generateScoreAt` has nothing to do: a distance depends only on the board.
- `HeuristicBelowTerminal` assumes the oracle's distances lie in [0, K]. The oracle's code is not available to establish this.
- `MNKCell` is not part of this model. Two cells are taken to be equal when they name the same square.
- `EvaluationPosition` is not part of this model. Its ordering is taken as ascending urgency. Ties go to the earlier-inserted candidate, whereas Java's `PriorityQueue` breaks ties arbitrarily.
- Heap sharing is not modelled: ancestors are snapshots. Java's parent pointers alias live nodes. Only the ancestors' moves are ever read, and they never change.
- Garbage collection of dropped subtrees is not modelled.
- `Node`'s unused `adjacency` field is not modelled.
- `isEmpty` of both engines is not modelled. It is the `root.None?` test.
- `GameSearch.AlphaBeta` states the shape of its result. The min/max value over the flagged prefix is stated by `GameSearch.AlphaBetaInternal`, and its agreement with minimax by `GameSearch.AlphaBetaFailSoft`.
- `GameEngine.Advance` and `GameEngine.Plant` fix the new root's score through the minimax value of the grown tree and the fail-soft guarantee. The scores and flags alpha-beta leaves on the nodes below the root are not restated there; `GameSearch.VisitMeetsSpec` describes them.
- `GameTrees.CreateTree` does not state in its own contract that each child is the recursive result, because such a clause would name the function inside its own recursion; `GameTrees.CreateTreeRecurses` states it.
- `GameTrees.Grow` and `GameTrees.Expand` leave the same fact to `GameTrees.CreateTreeRecurses` and `GameTrees.ExpandRecurses`, for the same reason.
- `DecisionTrees.Develop` states the children's moves, order and fold, not their subtrees; `DecisionTrees.DevelopRecurses` states that each kept child is the evaluated recursive result, for the same reason.
- `DecisionTrees.CreateTree` and `DecisionTrees.Build` likewise leave the children's subtrees to `DecisionTrees.CreateTreeRecurses` and `DecisionTrees.BuildRecurses`.
- `GameTrees.CreateTree` states alternation and height only for a node that starts without children. Every call in the code is on such a node.
- `GameTrees.CreateTree` states the board is unchanged only when the node's mark is on the board or depth remains. Every call in the code places the node's mark first.
- `DecisionTrees.CreateTree` requires a node without children. Every call in the code passes a fresh node or a childless root. Completeness, one child for every open square next to the path, is stated by `DecisionTrees.Build`, before alpha-beta deletes any children.
- `DecisionEngine.GenerateFirst` requires the opening move to be on the grid. So does `DecisionEngine.Regenerate`, for every move of the history, and `DecisionEngine.Valid` keeps this as an invariant. The code would throw an `ArrayIndexOutOfBoundsException` otherwise.
- `Matrices.GetRowAt` requires the start row on the grid and `Matrices.GetColumnAt` the start column, because the code reads that row (or column) of the array at every index and throws off the grid. The other start coordinate is never read, in the code or in the model.
- `Matrices.GetMainDiagonalAt` requires the start position on the grid. Off the grid the code does not always throw. A start with x ≥ columns or y ≥ rows skips the forward loop. The backward loop then returns the whole diagonal through (x−1, y−1) when that square is on the grid, so (columns, rows) gives the diagonal through the last corner. It returns an empty array when x−1 or y−1 is negative, and throws otherwise. A start with a negative coordinate and the other one below its bound throws in the forward loop. These off-grid answers are not modelled; nothing in the modelled core calls the extractors.
- `Matrices.GetSecondaryDiagonalAt` requires the start position on the grid. Off the grid the code behaves alike: with x = columns and −1 ≤ y ≤ rows − 2, or with y = −1 and 1 ≤ x ≤ columns, it returns the whole anti-diagonal through (x−1, y+1). Other off-grid starts give an empty array or throw. These answers are not modelled.
- `Matrices.SetAt` and `Matrices.RemoveAt` require the position on the grid. The code indexes the array directly and throws off it.
- `DecisionEngine.SetOpponentMove` and `DecisionEngine.NextMove` return `Err(NoChildren)` without a state. The code has by then committed the refresh: `curr_target` raised and the root regrown (`DecisionTree.java` lines 172-175 and 196-199), before `getFirst()` throws on the empty child list. That state is `DecisionEngine.Refresh` of the engine, which both contracts name when they characterise the error.
- `GameEngine.NextMove` returns `Err(NoChildren)` without a state. On an empty child list the code peeks `null`, makes it the old root's only child and the root (`GameTree.java` lines 311-322), and only then throws in `extendLeaves`. The model keeps the engine as it was.

=== FILE: alignments.dfy ===
/** The exhaustive engine's own game-state test. The board is a grid
    `grid[x][y]` with `x` the row and `y` the column, `Free` for an empty
    cell. From the cell just played, each of the four lines through it is
    scanned both ways, at most `ct` steps each way (`ct` is the engine's
    current target), counting consecutive cells that carry the same mark
    as the played cell. */
module Alignments {
  import opened Types
  import opened Settings

  type Grid = seq<seq<CellState>>

  /** The grid has `rows` rows of `columns` cells each. */
  predicate Shaped(g: Config, grid: Grid) {
    |grid| == g.rows && forall x :: 0 <= x < |grid| ==> |grid[x]| == g.columns
  }

  /** In-bounds test of the exhaustive engine: `x` is a row, `y` a column. */
  predicate OnGrid(g: Config, x: int, y: int) {
    0 <= x < g.rows && 0 <= y < g.columns
  }

  /** This engine's bounds test takes (row, column), the heuristic
      engine's (column, row): both accept the same squares. */
  lemma BoundsAgree(g: Config, x: int, y: int)
    ensures OnGrid(g, x, y) <==> IsValidCell(g, y, x)
  {
  }

  /** The four lines through a cell, scanned in this order. */
  datatype Dir = Vertical | Horizontal | Diagonal | AntiDiagonal

  /** Row and column offsets of the cell `t` steps along `d`. */
  function DX(d: Dir, t: int): int {
    match d
    case Vertical => t
    case Horizontal => 0
    case Diagonal => t
    case AntiDiagonal => t
  }

  function DY(d: Dir, t: int): int {
    match d
    case Vertical => 0
    case Horizontal => t
    case Diagonal => t
    case AntiDiagonal => -t
  }

  /** The mark `t` steps from (`x`, `y`) along `d`, or `None` off the grid. */
  function Along(g: Config, grid: Grid, x: int, y: int, d: Dir, t: int): Option<CellState>
    requires Shaped(g, grid)
  {
    if OnGrid(g, x + DX(d, t), y + DY(d, t)) then Some(grid[x + DX(d, t)][y + DY(d, t)]) else None
  }

  /** Consecutive cells carrying `s` at offsets `i`, `i + 1`, ... along `d`,
      scanning no further than offset `ct`. */
  function Forward(g: Config, grid: Grid, x: int, y: int, d: Dir, s: CellState, i: int, ct: int): nat
    requires Shaped(g, grid)
    decreases ct + 1 - i
  {
    if i > ct || Along(g, grid, x, y, d, i) != Some(s) then 0
    else 1 + Forward(g, grid, x, y, d, s, i + 1, ct)
  }

  /** The same scan the other way, at offsets `i`, `i - 1`, ..., no
      further than offset `-ct`. */
  function Backward(g: Config, grid: Grid, x: int, y: int, d: Dir, s: CellState, i: int, ct: int): nat
    requires Shaped(g, grid)
    decreases ct + 1 + i
  {
    if -i > ct || Along(g, grid, x, y, d, i) != Some(s) then 0
    else 1 + Backward(g, grid, x, y, d, s, i - 1, ct)
  }

  /** The count the code compares with `ct` for one line: the played cell
      plus both capped scans. */
  function Aligned(g: Config, grid: Grid, x: int, y: int, d: Dir, ct: int): nat
    requires Shaped(g, grid) && OnGrid(g, x, y)
  {
    1 + Backward(g, grid, x, y, d, grid[x][y], -1, ct) + Forward(g, grid, x, y, d, grid[x][y], 1, ct)
  }

  /** Offsets `a` to `c` along `d`, a stretch containing the played cell,
      all lie on the grid and carry the played cell's mark. */
  ghost predicate Segment(g: Config, grid: Grid, x: int, y: int, d: Dir, a: int, c: int)
    requires Shaped(g, grid) && OnGrid(g, x, y)
  {
    a <= 0 <= c && forall t :: a <= t <= c ==> Along(g, grid, x, y, d, t) == Some(grid[x][y])
  }

  /** Reference definition of a completed line: some stretch of at least
      `ct` equal marks through the played cell in one of the four lines. */
  ghost predicate HasLine(g: Config, grid: Grid, x: int, y: int, ct: int)
    requires Shaped(g, grid) && OnGrid(g, x, y)
  {
    exists d: Dir, a: int, c: int :: Segment(g, grid, x, y, d, a, c) && c - a + 1 >= ct
  }

  lemma {:induction false} ForwardSpec(g: Config, grid: Grid, x: int, y: int, d: Dir, s: CellState, i: int, ct: int)
    requires Shaped(g, grid)
    ensures var r := Forward(g, grid, x, y, d, s, i, ct);
      && (forall t :: i <= t < i + r ==> Along(g, grid, x, y, d, t) == Some(s))
      && (i + r <= ct ==> Along(g, grid, x, y, d, i + r) != Some(s))
    decreases ct + 1 - i
  {
    if !(i > ct || Along(g, grid, x, y, d, i) != Some(s)) {
      ForwardSpec(g, grid, x, y, d, s, i + 1, ct);
    }
  }

  lemma {:induction false} BackwardSpec(g: Config, grid: Grid, x: int, y: int, d: Dir, s: CellState, i: int, ct: int)
    requires Shaped(g, grid)
    ensures var r := Backward(g, grid, x, y, d, s, i, ct);
      && (forall t :: i - r < t <= i ==> Along(g, grid, x, y, d, t) == Some(s))
      && (r - i <= ct ==> Along(g, grid, x, y, d, i - r) != Some(s))
    decreases ct + 1 + i
  {
    if !(-i > ct || Along(g, grid, x, y, d, i) != Some(s)) {
      BackwardSpec(g, grid, x, y, d, s, i - 1, ct);
    }
  }

  /** A count reaching `ct` is witnessed by the stretch the two scans covered. */
  lemma AlignedGivesSegment(g: Config, grid: Grid, x: int, y: int, d: Dir, ct: int)
    requires Shaped(g, grid) && OnGrid(g, x, y)
    ensures var b: int := Backward(g, grid, x, y, d, grid[x][y], -1, ct);
      var f := Forward(g, grid, x, y, d, grid[x][y], 1, ct);
      Segment(g, grid, x, y, d, -b, f)
  {
    var s := grid[x][y];
    ForwardSpec(g, grid, x, y, d, s, 1, ct);
    BackwardSpec(g, grid, x, y, d, s, -1, ct);
    assert Along(g, grid, x, y, d, 0) == Some(s);
  }

  /** Any stretch of `ct` equal marks through the played cell makes the
      capped scans of its line reach `ct`. */
  lemma SegmentGivesAligned(g: Config, grid: Grid, x: int, y: int, d: Dir, a: int, c: int, ct: int)
    requires Shaped(g, grid) && OnGrid(g, x, y)
    requires Segment(g, grid, x, y, d, a, c) && c - a + 1 >= ct
    ensures Aligned(g, grid, x, y, d, ct) >= ct
  {
    var s := grid[x][y];
    ForwardSpec(g, grid, x, y, d, s, 1, ct);
    BackwardSpec(g, grid, x, y, d, s, -1, ct);
    var b: int := Backward(g, grid, x, y, d, s, -1, ct);
    var f := Forward(g, grid, x, y, d, s, 1, ct);
    assert 1 + f <= c ==> Along(g, grid, x, y, d, 1 + f) == Some(s);
    assert a <= -1 - b ==> Along(g, grid, x, y, d, -1 - b) == Some(s);
  }

  /** The four line counts, in the code's order, reach `ct`. */
  predicate AnyAligned(g: Config, grid: Grid, x: int, y: int, ct: int)
    requires Shaped(g, grid) && OnGrid(g, x, y)
  {
    || Aligned(g, grid, x, y, Vertical, ct) >= ct
    || Aligned(g, grid, x, y, Horizontal, ct) >= ct
    || Aligned(g, grid, x, y, Diagonal, ct) >= ct
    || Aligned(g, grid, x, y, AntiDiagonal, ct) >= ct
  }

  /** The capped scans find a line exactly when one exists. */
  lemma AlignedIffLine(g: Config, grid: Grid, x: int, y: int, ct: int)
    requires Shaped(g, grid) && OnGrid(g, x, y)
    ensures AnyAligned(g, grid, x, y, ct) <==> HasLine(g, grid, x, y, ct)
  {
    if HasLine(g, grid, x, y, ct) {
      var d: Dir, a: int, c: int :| Segment(g, grid, x, y, d, a, c) && c - a + 1 >= ct;
      SegmentGivesAligned(g, grid, x, y, d, a, c, ct);
    }
    forall d: Dir | Aligned(g, grid, x, y, d, ct) >= ct ensures HasLine(g, grid, x, y, ct) {
      AlignedGivesSegment(g, grid, x, y, d, ct);
    }
  }

  /** Game state after the move at (`x`, `y`): a line of `ct` through it is
      the agent's win when the cell is the agent's and a loss otherwise
      (whatever the cell holds); failing that, a draw exactly when the
      placed-cell counter `size` has reached the grid's area. */
  function BoardStatus(g: Config, ct: int, grid: Grid, size: int, x: int, y: int): (r: GameState)
    requires Shaped(g, grid) && OnGrid(g, x, y)
    ensures HasLine(g, grid, x, y, ct) ==>
      r == (if grid[x][y] == MyState(g) then WinState(g) else LossState(g))
    ensures !HasLine(g, grid, x, y, ct) ==>
      r == (if size == g.rows * g.columns then Draw else Open)
  {
    AlignedIffLine(g, grid, x, y, ct);
    var result := if grid[x][y] == MyState(g) then WinState(g) else LossState(g);
    if Aligned(g, grid, x, y, Vertical, ct) >= ct then result
    else if Aligned(g, grid, x, y, Horizontal, ct) >= ct then result
    else if Aligned(g, grid, x, y, Diagonal, ct) >= ct then result
    else if Aligned(g, grid, x, y, AntiDiagonal, ct) >= ct then result
    else if size == g.rows * g.columns then Draw
    else Open
  }
}

=== FILE: alphabeta.dfy ===
/** Alpha-beta valuation of the heuristic engine. Each internal node first
    lowers the `alphabeta` flag of all its children, then visits them in
    order, raising the flag of each child it evaluates, and stops after the
    child at which `beta <= alpha`. The flag `myNode` drives a MINIMISING
    step (running value from `MaxScore + 1`), its negation a maximising one
    (from `MinScore - 1`); the child is evaluated with the flag negated. */
module GameSearch {
  import opened Types
  import opened Settings
  import opened Nodes

  /** One step of the running value: min when minimising, max otherwise. */
  function Step(minimise: bool, e: int, v: int): int {
    if minimise then Min(e, v) else Max(e, v)
  }

  /** The running value after folding in the scores of `s`, from `e`. */
  function Fold(minimise: bool, e: int, s: seq<Node>): int
    decreases |s|
  {
    if |s| == 0 then e else Fold(minimise, Step(minimise, e, s[0].score), s[1..])
  }

  /** The window has closed once the running value `e` is folded into the
      bound the step moves: `beta` when minimising, `alpha` otherwise. */
  predicate Cut(minimise: bool, e: int, alpha: int, beta: int) {
    if minimise then Min(e, beta) <= alpha else beta <= Max(e, alpha)
  }

  /** The number of leading nodes whose `alphabeta` flag is up. */
  function Lead(s: seq<Node>): (p: nat)
    ensures p <= |s|
    decreases |s|
  {
    if |s| == 0 || !s[0].alphabeta then 0 else 1 + Lead(s[1..])
  }

  /** The running value once the first `j + 1` nodes of `s` are folded in. */
  function RunningValue(minimise: bool, e0: int, s: seq<Node>, j: nat): int
    requires j < |s|
  {
    Fold(minimise, e0, s[..j + 1])
  }

  function ClearFlags(s: seq<Node>): (r: seq<Node>)
    ensures |r| == |s|
    ensures forall i :: 0 <= i < |s| ==> r[i] == s[i].(alphabeta := false)
  {
    seq(|s|, i requires 0 <= i < |s| => s[i].(alphabeta := false))
  }

  function InitialValue(g: Config, myNode: bool): int {
    if myNode then MaxScore(g) + 1 else MinScore(g) - 1
  }

  /** Evaluates `n`, returning its value and the node with scores and flags
      updated. A leaf is returned as it is, with its stored score. */
  function AlphaBeta(g: Config, n: Node, myNode: bool, alpha: int, beta: int): (r: (int, Node))
    ensures r.1.score == r.0
    ensures r.1.action == n.action && r.1.endState == n.endState && r.1.alphabeta == n.alphabeta
    ensures |r.1.children| == |n.children|
    ensures IsLeaf(n) ==> r == (n.score, n)
    decreases n, 1, 0
  {
    if IsLeaf(n) then (n.score, n)
    else
      var res := Visit(g, n, 0, myNode, InitialValue(g, myNode), alpha, beta);
      (res.0, n.(children := res.1, score := res.0))
  }

  /** Visits `n.children[k..]` with running value `eval` and window
      (`alpha`, `beta`); returns the final value and the visited children
      followed by the unvisited ones with lowered flags. */
  function Visit(g: Config, n: Node, k: nat, myNode: bool, eval: int, alpha: int, beta: int): (r: (int, seq<Node>))
    requires k <= |n.children|
    ensures |r.1| == |n.children| - k
    decreases n, 0, |n.children| - k
  {
    if k == |n.children| then (eval, [])
    else
      var child := AlphaBeta(g, n.children[k], !myNode, alpha, beta);
      var eval' := Step(myNode, eval, child.0);
      var alpha' := if myNode then alpha else Max(eval', alpha);
      var beta' := if myNode then Min(eval', beta) else beta;
      var visited := child.1.(alphabeta := true);
      if beta' <= alpha' then (eval', [visited] + ClearFlags(n.children[k + 1..]))
      else
        var rest := Visit(g, n, k + 1, myNode, eval', alpha', beta');
        (rest.0, [visited] + rest.1)
  }

  /** What one pass over a child list establishes: `out` is `kids` with a
      non-empty prefix of `P` children flagged (evaluated), the rest
      unflagged and otherwise untouched; the value is the min (or max) of
      `e0` and the flagged children's scores; no cut happened before the
      last flagged child, and one happened there unless all were visited. */
  ghost predicate VisitSpec(g: Config, kids: seq<Node>, out: seq<Node>, minimise: bool, e0: int, alpha: int, beta: int, value: int) {
    var P := Lead(out);
    && |out| == |kids|
    && (|out| > 0 ==> P >= 1)
    && (forall i :: 0 <= i < |out| ==> (out[i].alphabeta <==> i < P))
    && value == Fold(minimise, e0, out[..P])
    && (forall j :: 0 <= j < P - 1 ==> !Cut(minimise, RunningValue(minimise, e0, out, j), alpha, beta))
    && (P < |out| ==> Cut(minimise, value, alpha, beta))
    && (forall i :: P <= i < |out| ==> out[i] == kids[i].(alphabeta := false))
    && (forall i :: 0 <= i < P ==> out[i].action == kids[i].action && |out[i].children| == |kids[i].children|)
    && (forall i :: 0 <= i < P ==> Evaluates(g, kids[i], out[i], !minimise))
  }

  /** `out` is `kid` as alpha-beta leaves it under some window, flagged. */
  ghost predicate Evaluates(g: Config, kid: Node, out: Node, minimise: bool) {
    exists a: int, b: int :: out == AlphaBeta(g, kid, minimise, a, b).1.(alphabeta := true)
  }

  lemma {:induction false} FoldBound(minimise: bool, e: int, s: seq<Node>)
    ensures minimise ==> Fold(minimise, e, s) <= e
    ensures !minimise ==> Fold(minimise, e, s) >= e
    decreases |s|
  {
    if |s| > 0 {
      FoldBound(minimise, Step(minimise, e, s[0].score), s[1..]);
    }
  }

  lemma LeadOfCleared(s: seq<Node>)
    ensures Lead(ClearFlags(s)) == 0
  {
  }

  /** The window closed at the first child: only it is flagged. */
  lemma CutAtFirst(g: Config, kids: seq<Node>, visited: Node, minimise: bool, eval: int, alpha: int, beta: int)
    requires |kids| > 0 && visited == AlphaBeta(g, kids[0], !minimise, alpha, beta).1.(alphabeta := true)
    requires Cut(minimise, Step(minimise, eval, visited.score), alpha, beta)
    ensures VisitSpec(g, kids, [visited] + ClearFlags(kids[1..]), minimise, eval, alpha, beta, Step(minimise, eval, visited.score))
  {
    var out := [visited] + ClearFlags(kids[1..]);
    assert Evaluates(g, kids[0], visited, !minimise);
    assert out[1..] == ClearFlags(kids[1..]);
    LeadOfCleared(kids[1..]);
    assert Lead(out) == 1;
    assert out[..1] == [visited];
    assert out[..1][1..] == [];
    forall i | 1 <= i < |out|
      ensures out[i] == kids[i].(alphabeta := false)
    {
      assert kids[1..][i - 1] == kids[i];
    }
  }

  /** The window stayed open after the first child: the pass over the rest,
      started from the updated value and window, extends to the whole list. */
  lemma ContinuePast(g: Config, kids: seq<Node>, visited: Node, rest: seq<Node>, minimise: bool,
                     eval: int, alpha: int, beta: int, value: int)
    requires |kids| > 0 && visited == AlphaBeta(g, kids[0], !minimise, alpha, beta).1.(alphabeta := true)
    requires var e' := Step(minimise, eval, visited.score);
      var a' := if minimise then alpha else Max(e', alpha);
      var b' := if minimise then Min(e', beta) else beta;
      b' > a' && VisitSpec(g, kids[1..], rest, minimise, e', a', b', value)
    ensures VisitSpec(g, kids, [visited] + rest, minimise, eval, alpha, beta, value)
  {
    var e' := Step(minimise, eval, visited.score);
    var a' := if minimise then alpha else Max(e', alpha);
    var b' := if minimise then Min(e', beta) else beta;
    var out := [visited] + rest;
    assert Evaluates(g, kids[0], visited, !minimise);
    assert out[1..] == rest;
    var P' := Lead(rest);
    assert Lead(out) == 1 + P';
    var P := 1 + P';
    assert out[..P][1..] == rest[..P'];
    assert Fold(minimise, eval, out[..P]) == Fold(minimise, e', rest[..P']);
    FoldBound(minimise, e', rest[..P']);
    forall j | 0 <= j < P - 1
      ensures !Cut(minimise, RunningValue(minimise, eval, out, j), alpha, beta)
    {
      assert out[..j + 1][1..] == rest[..j];
      assert RunningValue(minimise, eval, out, j) == Fold(minimise, e', rest[..j]);
      FoldBound(minimise, e', rest[..j]);
      if j > 0 {
        assert !Cut(minimise, RunningValue(minimise, e', rest, j - 1), a', b');
      } else {
        assert rest[..0] == [];
      }
    }
    forall i | 0 <= i < |out|
      ensures out[i].alphabeta <==> i < P
    {
      if i > 0 { assert out[i] == rest[i - 1]; }
    }
    forall i | 1 <= i < |out|
      ensures out[i] == rest[i - 1] && kids[i] == kids[1..][i - 1]
    {
    }
  }

  lemma {:induction false} VisitMeetsSpec(g: Config, n: Node, k: nat, myNode: bool, eval: int, alpha: int, beta: int)
    requires k <= |n.children|
    ensures var r := Visit(g, n, k, myNode, eval, alpha, beta);
      VisitSpec(g, n.children[k..], r.1, myNode, eval, alpha, beta, r.0)
    decreases |n.children| - k
  {
    var kids := n.children[k..];
    if k < |n.children| {
      var child := AlphaBeta(g, n.children[k], !myNode, alpha, beta);
      var eval' := Step(myNode, eval, child.0);
      var alpha' := if myNode then alpha else Max(eval', alpha);
      var beta' := if myNode then Min(eval', beta) else beta;
      var visited := child.1.(alphabeta := true);
      assert kids[0] == n.children[k];
      assert kids[1..] == n.children[k + 1..];
      if beta' <= alpha' {
        CutAtFirst(g, kids, visited, myNode, eval, alpha, beta);
      } else {
        VisitMeetsSpec(g, n, k + 1, myNode, eval', alpha', beta');
        var rest := Visit(g, n, k + 1, myNode, eval', alpha', beta');
        ContinuePast(g, kids, visited, rest.1, myNode, eval, alpha, beta, rest.0);
      }
    }
  }

  /** On an internal node the value is written to the node, its children are
      the old ones with a visited prefix flagged, and the value is the min
      (`myNode`) or max of the flagged children's scores starting from
      `MaxScore + 1` (or `MinScore - 1`). */
  lemma AlphaBetaInternal(g: Config, n: Node, myNode: bool, alpha: int, beta: int)
    requires !IsLeaf(n)
    ensures var r := AlphaBeta(g, n, myNode, alpha, beta);
      VisitSpec(g, n.children, r.1.children, myNode, InitialValue(g, myNode), alpha, beta, r.0)
  {
    VisitMeetsSpec(g, n, 0, myNode, InitialValue(g, myNode), alpha, beta);
    assert n.children[0..] == n.children;
  }

  // ----- agreement with plain minimax -----

  /** The value plain minimax gives `n` with the same conventions: leaves
      keep their stored score, internal nodes fold every child's value from
      `InitialValue`, minimising when `minimise`. */
  ghost function Minimax(g: Config, n: Node, minimise: bool): int
    decreases n, 1, 0
  {
    if IsLeaf(n) then n.score else MinimaxFrom(g, n, 0, minimise, InitialValue(g, minimise))
  }

  /** The running minimax value over `n.children[k..]`, from `e`. */
  ghost function MinimaxFrom(g: Config, n: Node, k: nat, minimise: bool, e: int): int
    requires k <= |n.children|
    decreases n, 0, |n.children| - k
  {
    if k == |n.children| then e
    else MinimaxFrom(g, n, k + 1, minimise, Step(minimise, e, Minimax(g, n.children[k], !minimise)))
  }

  /** The usual guarantee of fail-soft alpha-beta for a non-empty window
      (`alpha`, `beta`): a value `v` inside the window is the exact minimax
      value `m`; one at or below `alpha` bounds `m` from above, one at or
      above `beta` bounds it from below. */
  predicate FailSoft(v: int, m: int, alpha: int, beta: int) {
    alpha < beta ==>
      && (v <= alpha ==> m <= v)
      && (beta <= v ==> v <= m)
      && (alpha < v < beta ==> m == v)
  }

  lemma {:induction false} MinimaxFromStep(g: Config, n: Node, k: nat, minimise: bool, a: int, b: int)
    requires k <= |n.children|
    ensures MinimaxFrom(g, n, k, minimise, Step(minimise, a, b)) == Step(minimise, a, MinimaxFrom(g, n, k, minimise, b))
    decreases |n.children| - k
  {
    if k < |n.children| {
      var c := Minimax(g, n.children[k], !minimise);
      MinimaxFromStep(g, n, k + 1, minimise, a, Step(minimise, b, c));
    }
  }

  lemma {:induction false} MinimaxFromBound(g: Config, n: Node, k: nat, minimise: bool, e: int)
    requires k <= |n.children|
    ensures minimise ==> MinimaxFrom(g, n, k, minimise, e) <= e
    ensures !minimise ==> MinimaxFrom(g, n, k, minimise, e) >= e
    decreases |n.children| - k
  {
    if k < |n.children| {
      MinimaxFromBound(g, n, k + 1, minimise, Step(minimise, e, Minimax(g, n.children[k], !minimise)));
    }
  }

  /** The value of a pass never rises above (minimising) or falls below
      (maximising) its starting running value. */
  lemma {:induction false} VisitBound(g: Config, n: Node, k: nat, myNode: bool, eval: int, alpha: int, beta: int)
    requires k <= |n.children|
    ensures myNode ==> Visit(g, n, k, myNode, eval, alpha, beta).0 <= eval
    ensures !myNode ==> Visit(g, n, k, myNode, eval, alpha, beta).0 >= eval
    decreases |n.children| - k
  {
    if k < |n.children| {
      var child := AlphaBeta(g, n.children[k], !myNode, alpha, beta);
      var eval' := Step(myNode, eval, child.0);
      var alpha' := if myNode then alpha else Max(eval', alpha);
      var beta' := if myNode then Min(eval', beta) else beta;
      if beta' > alpha' {
        VisitBound(g, n, k + 1, myNode, eval', alpha', beta');
      }
    }
  }

  /** Alpha-beta is fail-soft with respect to plain minimax: inside the
      window it computes the minimax value exactly, and outside it the
      value it returns is a bound on the minimax value. */
  lemma {:induction false} AlphaBetaFailSoft(g: Config, n: Node, myNode: bool, alpha: int, beta: int)
    ensures FailSoft(AlphaBeta(g, n, myNode, alpha, beta).0, Minimax(g, n, myNode), alpha, beta)
    decreases n, 1, 0
  {
    if !IsLeaf(n) {
      VisitFailSoft(g, n, 0, myNode, InitialValue(g, myNode), alpha, beta);
    }
  }

  /** The same guarantee for a pass over `n.children[k..]` against the
      minimax fold of those children. */
  lemma {:induction false} VisitFailSoft(g: Config, n: Node, k: nat, myNode: bool, eval: int, alpha: int, beta: int)
    requires k <= |n.children|
    ensures FailSoft(Visit(g, n, k, myNode, eval, alpha, beta).0, MinimaxFrom(g, n, k, myNode, eval), alpha, beta)
    decreases n, 0, |n.children| - k
  {
    if k < |n.children| && alpha < beta {
      var c := n.children[k];
      var child := AlphaBeta(g, c, !myNode, alpha, beta);
      AlphaBetaFailSoft(g, c, !myNode, alpha, beta);
      var v := child.0;
      var mc := Minimax(g, c, !myNode);
      var eval' := Step(myNode, eval, v);
      var alpha' := if myNode then alpha else Max(eval', alpha);
      var beta' := if myNode then Min(eval', beta) else beta;
      var rest := MinimaxFrom(g, n, k + 1, myNode, eval);
      // the minimax fold from here is the child's value stepped into the rest
      MinimaxFromStep(g, n, k + 1, myNode, mc, eval);
      assert MinimaxFrom(g, n, k, myNode, eval) == Step(myNode, mc, rest);
      MinimaxFromStep(g, n, k + 1, myNode, v, eval);
      assert MinimaxFrom(g, n, k + 1, myNode, eval') == Step(myNode, v, rest);
      MinimaxFromBound(g, n, k + 1, myNode, eval);
      if beta' > alpha' {
        VisitFailSoft(g, n, k + 1, myNode, eval', alpha', beta');
        VisitBound(g, n, k + 1, myNode, eval', alpha', beta');
        MinimaxFromBound(g, n, k + 1, myNode, eval');
      }
    }
  }

  /** `a` and `b` have the same moves and the same minimax value. */
  ghost predicate Alike(g: Config, a: Node, b: Node, minimise: bool) {
    Moves(a) == Moves(b) && Minimax(g, a, minimise) == Minimax(g, b, minimise)
  }

  /** `xs` is, node by node, alike the leading nodes of `ys`. */
  ghost predicate AllAlike(g: Config, xs: seq<Node>, ys: seq<Node>, minimise: bool) {
    |xs| <= |ys| && forall i :: 0 <= i < |xs| ==> Alike(g, xs[i], ys[i], minimise)
  }

  /** Children of equal minimax values fold to equal running values. */
  lemma {:induction false} MinimaxFromAlike(g: Config, a: Node, b: Node, k: nat, minimise: bool, e: int)
    requires |a.children| == |b.children| && k <= |a.children|
    requires forall i :: k <= i < |a.children| ==>
      Minimax(g, a.children[i], !minimise) == Minimax(g, b.children[i], !minimise)
    ensures MinimaxFrom(g, a, k, minimise, e) == MinimaxFrom(g, b, k, minimise, e)
    decreases |a.children| - k
  {
    if k < |a.children| {
      MinimaxFromAlike(g, a, b, k + 1, minimise, Step(minimise, e, Minimax(g, a.children[k], !minimise)));
    }
  }

  /** Raising or lowering a flag changes neither moves nor value. */
  lemma FlagKeepsTree(g: Config, x: Node, flag: bool, minimise: bool)
    ensures Alike(g, x.(alphabeta := flag), x, minimise)
  {
    var y := x.(alphabeta := flag);
    MovesByChildren(y, x);
    if !IsLeaf(x) {
      MinimaxFromAlike(g, y, x, 0, minimise, InitialValue(g, minimise));
    }
  }

  /** Alpha-beta rewrites scores and flags only: the tree it returns has the
      moves of the one it was given and the same minimax value. */
  lemma {:induction false} AlphaBetaKeepsTree(g: Config, n: Node, myNode: bool, alpha: int, beta: int)
    ensures Alike(g, AlphaBeta(g, n, myNode, alpha, beta).1, n, myNode)
    decreases n, 1, 0
  {
    if !IsLeaf(n) {
      var res := Visit(g, n, 0, myNode, InitialValue(g, myNode), alpha, beta);
      VisitKeepsTree(g, n, 0, myNode, InitialValue(g, myNode), alpha, beta);
      var r := n.(children := res.1, score := res.0);
      assert n.children[0..] == n.children;
      forall i | 0 <= i < |r.children|
        ensures Moves(r.children[i]) == Moves(n.children[i])
        ensures Minimax(g, r.children[i], !myNode) == Minimax(g, n.children[i], !myNode)
      {
        assert Alike(g, res.1[i], n.children[i], !myNode);
      }
      MovesByChildren(r, n);
      MinimaxFromAlike(g, r, n, 0, myNode, InitialValue(g, myNode));
    }
  }

  lemma {:induction false} VisitKeepsTree(g: Config, n: Node, k: nat, myNode: bool, eval: int, alpha: int, beta: int)
    requires k <= |n.children|
    ensures AllAlike(g, Visit(g, n, k, myNode, eval, alpha, beta).1, n.children[k..], !myNode)
    decreases n, 0, |n.children| - k
  {
    if k < |n.children| {
      var c := n.children[k];
      var child := AlphaBeta(g, c, !myNode, alpha, beta);
      AlphaBetaKeepsTree(g, c, !myNode, alpha, beta);
      FlagKeepsTree(g, child.1, true, !myNode);
      var eval' := Step(myNode, eval, child.0);
      var alpha' := if myNode then alpha else Max(eval', alpha);
      var beta' := if myNode then Min(eval', beta) else beta;
      var out := Visit(g, n, k, myNode, eval, alpha, beta).1;
      var kids := n.children[k..];
      assert kids[0] == c;
      if beta' <= alpha' {
        forall i | 1 <= i < |out| ensures Alike(g, out[i], kids[i], !myNode) {
          assert out[i] == n.children[k + i].(alphabeta := false);
          FlagKeepsTree(g, n.children[k + i], false, !myNode);
        }
      } else {
        VisitKeepsTree(g, n, k + 1, myNode, eval', alpha', beta');
        var rest := Visit(g, n, k + 1, myNode, eval', alpha', beta').1;
        forall i | 1 <= i < |out| ensures Alike(g, out[i], kids[i], !myNode) {
          assert out[i] == rest[i - 1];
          assert kids[i] == n.children[k + 1..][i - 1];
        }
      }
    }
  }
}

=== FILE: board.dfy ===
/** The position oracle the search consults. Its internals are not part of
    this model: the two queries it answers are function-valued fields of
    `Oracle`, applied to the current occupancy, so they are uninterpreted
    beyond depending on nothing but the board. Coordinates follow the
    oracle's convention: `x` is the column, `y` the row. */
module Boards {
  import opened Types

  datatype Pos = Pos(x: int, y: int)

  datatype Oracle = Oracle(
    status: (map<Pos, CellState>, Pos) -> GameState,
    movesToWin: (map<Pos, CellState>, Pos, CellState) -> int)

  /** Occupancy is a map from occupied squares to their mark. */
  datatype Board = Board(occ: map<Pos, CellState>, oracle: Oracle)

  function EmptyBoard(oracle: Oracle): (b: Board)
    ensures forall x, y :: IsFreeAt(b, x, y)
  {
    Board(map[], oracle)
  }

  predicate IsFreeAt(b: Board, x: int, y: int) {
    Pos(x, y) !in b.occ
  }

  /** Places mark `s` at (x, y); no other square changes. */
  function SetAt(b: Board, x: int, y: int, s: CellState): (r: Board)
    ensures !IsFreeAt(r, x, y) && r.occ[Pos(x, y)] == s
    ensures forall p :: p != Pos(x, y) ==> (p in r.occ <==> p in b.occ)
    ensures forall p :: p != Pos(x, y) && p in b.occ ==> r.occ[p] == b.occ[p]
    ensures r.oracle == b.oracle
  {
    b.(occ := b.occ[Pos(x, y) := s])
  }

  /** Empties (x, y); no other square changes. */
  function RemoveAt(b: Board, x: int, y: int): (r: Board)
    ensures IsFreeAt(r, x, y)
    ensures forall p :: p != Pos(x, y) ==> (p in r.occ <==> p in b.occ)
    ensures forall p :: p != Pos(x, y) && p in b.occ ==> r.occ[p] == b.occ[p]
    ensures r.oracle == b.oracle
  {
    b.(occ := b.occ - {Pos(x, y)})
  }

  function StatusAt(b: Board, x: int, y: int): GameState {
    b.oracle.status(b.occ, Pos(x, y))
  }

  /** The distance query. Refreshing the oracle's per-cell cache before
      reading it is implicit: the answer is a function of the occupancy. */
  function MovesToWinAt(b: Board, x: int, y: int, s: CellState): int {
    b.oracle.movesToWin(b.occ, Pos(x, y), s)
  }

  /** Placing on a free square and removing it again restores the board. */
  lemma PlaceThenRemove(b: Board, x: int, y: int, s: CellState)
    requires IsFreeAt(b, x, y)
    ensures RemoveAt(SetAt(b, x, y, s), x, y) == b
  {
    assert RemoveAt(SetAt(b, x, y, s), x, y).occ == b.occ;
  }

  /** Removing a square's mark and placing the same mark back restores the board. */
  lemma RemoveThenPlace(b: Board, x: int, y: int)
    requires !IsFreeAt(b, x, y)
    ensures SetAt(RemoveAt(b, x, y), x, y, b.occ[Pos(x, y)]) == b
  {
    assert SetAt(RemoveAt(b, x, y), x, y, b.occ[Pos(x, y)]).occ == b.occ;
  }
}

=== FILE: candidates.dfy ===
/** Candidate ranking: the free squares next to any cell on the path from a
    node up to the root, each with its urgency, consumed lowest urgency
    first. */
module Candidates {
  import opened Types
  import opened Settings
  import opened Boards

  /** A square to try (`x` column, `y` row) and its urgency; lower is more urgent. */
  datatype Candidate = Candidate(x: int, y: int, score: int)

  function PosOf(c: Candidate): Pos { Pos(c.x, c.y) }

  /** The square of a played cell: column first, then row. */
  function SquareOf(c: Cell): Pos { Pos(c.j, c.i) }

  /** `p` is one king step away from the square of `c`. */
  predicate KingStep(p: Pos, c: Cell) {
    && p != Pos(c.j, c.i)
    && -1 <= p.x - c.j <= 1
    && -1 <= p.y - c.i <= 1
  }

  /** The eight neighbours of a cell, row offset outermost, both offsets
      running from -1 to 1. */
  function Around(c: Cell): (r: seq<Pos>)
    ensures |r| == 8
    ensures forall p :: p in r <==> KingStep(p, c)
  {
    [ Pos(c.j - 1, c.i - 1), Pos(c.j, c.i - 1), Pos(c.j + 1, c.i - 1),
      Pos(c.j - 1, c.i),                        Pos(c.j + 1, c.i),
      Pos(c.j - 1, c.i + 1), Pos(c.j, c.i + 1), Pos(c.j + 1, c.i + 1) ]
  }

  /** The neighbours of every cell of `path`, in path order, repeats kept. */
  function Neighbours(path: seq<Cell>): (r: seq<Pos>)
    ensures forall p :: p in r <==> exists k :: 0 <= k < |path| && KingStep(p, path[k])
    decreases |path|
  {
    if |path| == 0 then []
    else
      var r := Around(path[0]) + Neighbours(path[1..]);
      assert forall p :: (exists k :: 0 <= k < |path| && KingStep(p, path[k])) ==>
        KingStep(p, path[0]) || exists k :: 0 <= k < |path[1..]| && KingStep(p, path[1..][k]) by {
        forall p | exists k :: 0 <= k < |path| && KingStep(p, path[k])
          ensures KingStep(p, path[0]) || exists k :: 0 <= k < |path[1..]| && KingStep(p, path[1..][k])
        {
          var k :| 0 <= k < |path| && KingStep(p, path[k]);
          if k > 0 { assert path[1..][k - 1] == path[k]; }
        }
      }
      r
  }

  /** Urgency of a square: the smaller of the two sides' distances to a win through it. */
  function Urgency(g: Config, b: Board, p: Pos): int {
    Min(MovesToWinAt(b, p.x, p.y, MyState(g)), MovesToWinAt(b, p.x, p.y, OpponentState(g)))
  }

  predicate Eligible(g: Config, b: Board, p: Pos) {
    IsValidCell(g, p.x, p.y) && IsFreeAt(b, p.x, p.y)
  }

  /** Every candidate of `r` is an in-bounds free square of `ps` outside
      `seen`, scored by its urgency. */
  predicate Ranks(g: Config, b: Board, ps: seq<Pos>, seen: set<Pos>, r: seq<Candidate>) {
    forall k :: 0 <= k < |r| ==>
      PosOf(r[k]) in ps && PosOf(r[k]) !in seen && Eligible(g, b, PosOf(r[k]))
      && r[k].score == Urgency(g, b, PosOf(r[k]))
  }

  /** No square is ranked twice. */
  predicate DistinctSquares(r: seq<Candidate>) {
    forall k, l :: 0 <= k < l < |r| ==> PosOf(r[k]) != PosOf(r[l])
  }

  /** Every in-bounds free square of `ps` outside `seen` is ranked. */
  predicate Covers(g: Config, b: Board, ps: seq<Pos>, seen: set<Pos>, r: seq<Candidate>) {
    forall p :: p in ps && p !in seen && Eligible(g, b, p) ==>
      exists k :: 0 <= k < |r| && PosOf(r[k]) == p
  }

  /** Keeps the in-bounds free squares of `ps` not yet in `seen`, each once,
      in first-occurrence order, scored by their urgency. */
  function Select(g: Config, b: Board, ps: seq<Pos>, seen: set<Pos>): (r: seq<Candidate>)
    ensures Ranks(g, b, ps, seen, r)
    ensures DistinctSquares(r)
    ensures Covers(g, b, ps, seen, r)
    decreases |ps|
  {
    if |ps| == 0 then []
    else
      var p := ps[0];
      if IsValidCell(g, p.x, p.y) && IsFreeAt(b, p.x, p.y) && p !in seen then
        var rest := Select(g, b, ps[1..], seen + {p});
        SelectKeeps(g, b, ps, seen, rest);
        [Candidate(p.x, p.y, Urgency(g, b, p))] + rest
      else
        SelectSkips(g, b, ps, seen, Select(g, b, ps[1..], seen));
        Select(g, b, ps[1..], seen)
  }

  /** The step of `Select` that keeps the head square. */
  lemma SelectKeeps(g: Config, b: Board, ps: seq<Pos>, seen: set<Pos>, rest: seq<Candidate>)
    requires |ps| > 0 && Eligible(g, b, ps[0]) && ps[0] !in seen
    requires Ranks(g, b, ps[1..], seen + {ps[0]}, rest)
    requires DistinctSquares(rest)
    requires Covers(g, b, ps[1..], seen + {ps[0]}, rest)
    ensures var r := [Candidate(ps[0].x, ps[0].y, Urgency(g, b, ps[0]))] + rest;
      Ranks(g, b, ps, seen, r) && DistinctSquares(r) && Covers(g, b, ps, seen, r)
  {
    var p := ps[0];
    var r := [Candidate(p.x, p.y, Urgency(g, b, p))] + rest;
    assert forall k :: 1 <= k < |r| ==> r[k] == rest[k - 1];
    forall q | q in ps && q !in seen && Eligible(g, b, q)
      ensures exists k :: 0 <= k < |r| && PosOf(r[k]) == q
    {
      if q == p { assert PosOf(r[0]) == q; }
      else {
        assert q in ps[1..];
        var k :| 0 <= k < |rest| && PosOf(rest[k]) == q;
        assert PosOf(r[k + 1]) == q;
      }
    }
  }

  /** The step of `Select` that drops the head square. */
  lemma SelectSkips(g: Config, b: Board, ps: seq<Pos>, seen: set<Pos>, rest: seq<Candidate>)
    requires |ps| > 0 && !(Eligible(g, b, ps[0]) && ps[0] !in seen)
    requires Ranks(g, b, ps[1..], seen, rest)
    requires Covers(g, b, ps[1..], seen, rest)
    ensures Ranks(g, b, ps, seen, rest) && Covers(g, b, ps, seen, rest)
  {
    forall q | q in ps && q !in seen && Eligible(g, b, q)
      ensures exists k :: 0 <= k < |rest| && PosOf(rest[k]) == q
    {
      assert q in ps[1..];
    }
  }

  /** `p` is one king step from some cell of `path`. */
  predicate NearPath(p: Pos, path: seq<Cell>) {
    exists m :: 0 <= m < |path| && KingStep(p, path[m])
  }

  /** The ranked squares around the path from a node (first) up to the root:
      in-bounds free king-step neighbours of some path cell, each once,
      scored by urgency. */
  function GetInterestingPositions(g: Config, b: Board, path: seq<Cell>): (r: seq<Candidate>)
    ensures forall k :: 0 <= k < |r| ==>
      Eligible(g, b, PosOf(r[k])) && NearPath(PosOf(r[k]), path) && r[k].score == Urgency(g, b, PosOf(r[k]))
    ensures forall k, l :: 0 <= k < l < |r| ==> PosOf(r[k]) != PosOf(r[l])
  {
    Select(g, b, Neighbours(path), {})
  }

  /** Conversely, every in-bounds free king-step neighbour of a path cell is
      among the ranked squares. */
  lemma InterestingPositionsComplete(g: Config, b: Board, path: seq<Cell>, p: Pos)
    requires NearPath(p, path) && Eligible(g, b, p)
    ensures exists k :: 0 <= k < |GetInterestingPositions(g, b, path)| && PosOf(GetInterestingPositions(g, b, path)[k]) == p
  {
    assert p in Neighbours(path);
    assert GetInterestingPositions(g, b, path) == Select(g, b, Neighbours(path), {});
  }

  // ----- the priority queue -----

  /** Index of the first candidate of least urgency. */
  function FirstMinIndex(q: seq<Candidate>): (k: nat)
    requires |q| > 0
    ensures k < |q|
    ensures forall l :: 0 <= l < |q| ==> q[k].score <= q[l].score
    ensures forall l :: 0 <= l < k ==> q[l].score > q[k].score
    decreases |q|
  {
    if |q| == 1 then 0
    else
      var k := FirstMinIndex(q[1..]);
      if q[0].score <= q[k + 1].score then 0 else k + 1
  }

  /** Takes the most urgent candidate out of the queue. */
  function Poll(q: seq<Candidate>): (r: (Candidate, seq<Candidate>))
    requires |q| > 0
    ensures r.0 in q
    ensures forall c :: c in q ==> r.0.score <= c.score
    ensures multiset(r.1) + multiset{r.0} == multiset(q)
  {
    var k := FirstMinIndex(q);
    assert q == q[..k] + [q[k]] + q[k + 1..];
    (q[k], q[..k] + q[k + 1..])
  }
}

=== FILE: decisiontree.dfy ===
/** The exhaustive engine's tree: every free king-step neighbour of the
    path is tried at every ply until the game ends, and alpha-beta both
    values a node and deletes the children after the one where the window
    closed. Scores are from the agent's side: a win `depth` plies down is
    worth `MaxScore - depth`, a loss `MinScore + depth`, a draw 0. */
module DecisionTrees {
  import opened Types
  import opened Settings
  import opened Nodes
  import opened Boards
  import opened Candidates
  import opened Alignments
  import GameSearch

  /** Every move in the tree lies on the grid. */
  ghost predicate Within(g: Config, n: Node)
    decreases n
  {
    OnGrid(g, n.action.i, n.action.j) && forall k :: 0 <= k < |n.children| ==> Within(g, n.children[k])
  }

  // ----- alpha-beta with deletion -----

  /** Evaluates `n` (minimising when `me`, from `MaxScore + 1`, else
      maximising from `MinScore - 1`), keeping only the children up to the
      one at which `beta <= alpha`. A leaf keeps its stored score. */
  function AlphaBeta(g: Config, n: Node, me: bool, alpha: int, beta: int): (r: (int, Node))
    ensures r.1.score == r.0
    ensures r.1.action == n.action && r.1.endState == n.endState && r.1.alphabeta == n.alphabeta
    ensures |r.1.children| <= |n.children|
    ensures forall k :: 0 <= k < |r.1.children| ==> r.1.children[k].action == n.children[k].action
    ensures IsLeaf(n) ==> r == (n.score, n)
    ensures !IsLeaf(n) ==>
      |r.1.children| >= 1 && r.0 == GameSearch.Fold(me, GameSearch.InitialValue(g, me), r.1.children)
    ensures Within(g, n) ==> Within(g, r.1)
    decreases n, 1, 0
  {
    if IsLeaf(n) then (n.score, n)
    else
      var res := Visit(g, n, 0, me, GameSearch.InitialValue(g, me), alpha, beta);
      (res.0, n.(children := res.1, score := res.0))
  }

  /** Visits `n.children[k..]` from running value `eval`; returns the value
      and the evaluated children, the last one being where the window closed
      (if it did). */
  function Visit(g: Config, n: Node, k: nat, me: bool, eval: int, alpha: int, beta: int): (r: (int, seq<Node>))
    requires k <= |n.children|
    ensures |r.1| <= |n.children| - k
    ensures k < |n.children| ==> |r.1| >= 1
    ensures forall i :: 0 <= i < |r.1| ==> r.1[i].action == n.children[k + i].action
    ensures r.0 == GameSearch.Fold(me, eval, r.1)
    ensures (forall i :: k <= i < |n.children| ==> Within(g, n.children[i])) ==>
      forall i :: 0 <= i < |r.1| ==> Within(g, r.1[i])
    decreases n, 0, |n.children| - k
  {
    if k == |n.children| then (eval, [])
    else
      var child := AlphaBeta(g, n.children[k], !me, alpha, beta);
      var eval' := GameSearch.Step(me, eval, child.0);
      var alpha' := if me then alpha else Max(eval', alpha);
      var beta' := if me then Min(eval', beta) else beta;
      if beta' <= alpha' then (eval', [child.1])
      else
        var rest := Visit(g, n, k + 1, me, eval', alpha', beta');
        assert ([child.1] + rest.1)[1..] == rest.1;
        (rest.0, [child.1] + rest.1)
  }

  /** Every child an internal node keeps is that child as alpha-beta left
      it: no stale subtree survives the pass. */
  lemma KeptAreEvaluated(g: Config, n: Node, me: bool, alpha: int, beta: int)
    requires !IsLeaf(n)
    ensures AllEvaluate(g, n.children, AlphaBeta(g, n, me, alpha, beta).1.children, !me)
  {
    VisitKeepsEvaluated(g, n, 0, me, GameSearch.InitialValue(g, me), alpha, beta);
    assert n.children[0..] == n.children;
  }

  lemma {:induction false} VisitKeepsEvaluated(g: Config, n: Node, k: nat, me: bool, eval: int, alpha: int, beta: int)
    requires k <= |n.children|
    ensures AllEvaluate(g, n.children[k..], Visit(g, n, k, me, eval, alpha, beta).1, !me)
    decreases |n.children| - k
  {
    if k < |n.children| {
      var child := AlphaBeta(g, n.children[k], !me, alpha, beta);
      var eval' := GameSearch.Step(me, eval, child.0);
      var alpha' := if me then alpha else Max(eval', alpha);
      var beta' := if me then Min(eval', beta) else beta;
      assert Evaluates(g, n.children[k], child.1, !me);
      assert n.children[k..][0] == n.children[k];
      if beta' > alpha' {
        VisitKeepsEvaluated(g, n, k + 1, me, eval', alpha', beta');
        assert n.children[k..][1..] == n.children[k + 1..];
        var rest := Visit(g, n, k + 1, me, eval', alpha', beta');
        EvaluateCons(g, n.children[k..], child.1, rest.1, !me);
      }
    }
  }

  /** Every node of `out` is the matching node of `kids`, evaluated. */
  ghost predicate AllEvaluate(g: Config, kids: seq<Node>, out: seq<Node>, me: bool) {
    |out| <= |kids| && forall i :: 0 <= i < |out| ==> Evaluates(g, kids[i], out[i], me)
  }

  lemma EvaluateCons(g: Config, kids: seq<Node>, head: Node, rest: seq<Node>, me: bool)
    requires |kids| > 0 && Evaluates(g, kids[0], head, me) && AllEvaluate(g, kids[1..], rest, me)
    ensures AllEvaluate(g, kids, [head] + rest, me)
  {
    forall i | 1 <= i < |rest| + 1
      ensures Evaluates(g, kids[i], ([head] + rest)[i], me)
    {
      assert kids[1..][i - 1] == kids[i];
    }
  }

  /** `out` is `kid` as alpha-beta with deletion leaves it under some window. */
  ghost predicate Evaluates(g: Config, kid: Node, out: Node, me: bool) {
    exists a: int, b: int :: out == AlphaBeta(g, kid, me, a, b).1
  }

  /** Deleting children computes the same value as the flag-raising
      alpha-beta of the heuristic engine, and keeps exactly the children
      that one flags. */
  lemma {:induction false} AgreesWithFlagged(g: Config, n: Node, me: bool, alpha: int, beta: int)
    ensures var r := AlphaBeta(g, n, me, alpha, beta);
      var f := GameSearch.AlphaBeta(g, n, me, alpha, beta);
      r.0 == f.0 && (!IsLeaf(n) ==> |r.1.children| == GameSearch.Lead(f.1.children))
    decreases n, 1, 0
  {
    if !IsLeaf(n) {
      VisitAgrees(g, n, 0, me, GameSearch.InitialValue(g, me), alpha, beta);
    }
  }

  lemma {:induction false} VisitAgrees(g: Config, n: Node, k: nat, me: bool, eval: int, alpha: int, beta: int)
    requires k <= |n.children|
    ensures var r := Visit(g, n, k, me, eval, alpha, beta);
      var f := GameSearch.Visit(g, n, k, me, eval, alpha, beta);
      r.0 == f.0 && |r.1| == GameSearch.Lead(f.1)
    decreases n, 0, |n.children| - k
  {
    if k < |n.children| {
      AgreesWithFlagged(g, n.children[k], !me, alpha, beta);
      var child := GameSearch.AlphaBeta(g, n.children[k], !me, alpha, beta);
      var eval' := GameSearch.Step(me, eval, child.0);
      var alpha' := if me then alpha else Max(eval', alpha);
      var beta' := if me then Min(eval', beta) else beta;
      var visited := child.1.(alphabeta := true);
      if beta' <= alpha' {
        GameSearch.LeadOfCleared(n.children[k + 1..]);
        var out := [visited] + GameSearch.ClearFlags(n.children[k + 1..]);
        assert out[1..] == GameSearch.ClearFlags(n.children[k + 1..]);
      } else {
        VisitAgrees(g, n, k + 1, me, eval', alpha', beta');
        var rest := GameSearch.Visit(g, n, k + 1, me, eval', alpha', beta');
        assert ([visited] + rest.1)[1..] == rest.1;
      }
    }
  }

  /** Hence deleting alpha-beta is fail-soft with respect to plain minimax
      too: exact inside a non-empty window, a bound outside it. */
  lemma AlphaBetaFailSoft(g: Config, n: Node, me: bool, alpha: int, beta: int)
    ensures GameSearch.FailSoft(AlphaBeta(g, n, me, alpha, beta).0, GameSearch.Minimax(g, n, me), alpha, beta)
  {
    AgreesWithFlagged(g, n, me, alpha, beta);
    GameSearch.AlphaBetaFailSoft(g, n, me, alpha, beta);
  }

  // ----- terminal scores -----

  /** Score of a finished position `depth` plies below the tree's root. */
  function TerminalScore(g: Config, st: GameState, depth: int): int {
    if st == WinState(g) then MaxScore(g) - depth
    else if st == LossState(g) then MinScore(g) + depth
    else 0
  }

  /** A nearer win scores higher and a nearer loss lower; while fewer plies
      than cells have been played, any win beats a draw and any loss is worse. */
  lemma NearerIsStronger(g: Config, d1: int, d2: int)
    requires d1 < d2
    ensures TerminalScore(g, WinState(g), d1) > TerminalScore(g, WinState(g), d2)
    ensures TerminalScore(g, LossState(g), d1) < TerminalScore(g, LossState(g), d2)
    ensures 0 <= d1 && d2 < MaxScore(g) ==>
      TerminalScore(g, LossState(g), d2) < 0 < TerminalScore(g, WinState(g), d2)
  {
  }

  // ----- the grid and its free squares -----

  /** The grid with (`x`, `y`) set to `s`. */
  function Put(grid: Grid, x: int, y: int, s: CellState): (r: Grid)
    requires 0 <= x < |grid| && 0 <= y < |grid[x]|
    ensures |r| == |grid| && forall a :: 0 <= a < |grid| ==> |r[a]| == |grid[a]|
    ensures r[x][y] == s
    ensures forall a, b :: 0 <= a < |grid| && 0 <= b < |grid[a]| && (a != x || b != y) ==> r[a][b] == grid[a][b]
  {
    grid[x := grid[x][y := s]]
  }

  /** The free squares, as (row, column) pairs. */
  function FreeSquares(g: Config, grid: Grid): set<(int, int)>
    requires Shaped(g, grid)
  {
    set x, y | 0 <= x < g.rows && 0 <= y < g.columns && grid[x][y] == Free :: (x, y)
  }

  /** Marking a free square keeps the grid's shape and strictly shrinks the
      set of free squares: the measure under which the search terminates. */
  lemma MarkShrinksFree(g: Config, grid: Grid, x: int, y: int, s: CellState)
    requires Shaped(g, grid) && OnGrid(g, x, y) && grid[x][y] == Free && s != Free
    ensures Shaped(g, Put(grid, x, y, s))
    ensures FreeSquares(g, Put(grid, x, y, s)) < FreeSquares(g, grid)
  {
    var grid' := Put(grid, x, y, s);
    assert (x, y) in FreeSquares(g, grid) && (x, y) !in FreeSquares(g, grid');
    forall q | q in FreeSquares(g, grid') ensures q in FreeSquares(g, grid) {
      var (a, b) := q;
      assert grid'[a][b] == Free;
      assert a != x || b != y;
    }
  }

  // ----- children -----

  /** Squares on the grid's edge; those children go after the central ones. */
  predicate IsBorder(g: Config, c: Cell) {
    c.i == 0 || c.i == g.rows - 1 || c.j == 0 || c.j == g.columns - 1
  }

  /** Each child is a move of the side to move on a free in-bounds square
      one king step from the path. */
  predicate ChildMoves(g: Config, grid: Grid, path: seq<Cell>, me: bool, kids: seq<Node>)
    requires Shaped(g, grid)
  {
    forall k :: 0 <= k < |kids| ==>
      var c := kids[k].action;
      && OnGrid(g, c.i, c.j) && grid[c.i][c.j] == Free
      && c.state == Mark(g, me) && NearPath(SquareOf(c), path)
  }

  /** No two children on the same square. */
  predicate DistinctChildSquares(kids: seq<Node>) {
    forall k, l :: 0 <= k < l < |kids| ==> SquareOf(kids[k].action) != SquareOf(kids[l].action)
  }

  /** No central child comes after an edge child. */
  predicate BordersLast(g: Config, kids: seq<Node>) {
    forall k, l :: 0 <= k < l < |kids| && IsBorder(g, kids[k].action) ==> IsBorder(g, kids[l].action)
  }

  function Squares(kids: seq<Node>): (r: set<Pos>)
    ensures forall k :: 0 <= k < |kids| ==> SquareOf(kids[k].action) in r
    ensures forall p :: p in r ==> exists k :: 0 <= k < |kids| && SquareOf(kids[k].action) == p
  {
    set k | 0 <= k < |kids| :: SquareOf(kids[k].action)
  }

  /** A square the search tries: in bounds and free. */
  predicate Tryable(g: Config, grid: Grid, p: Pos)
    requires Shaped(g, grid)
  {
    OnGrid(g, p.y, p.x) && grid[p.y][p.x] == Free
  }

  /** The squares tried from `ps` when `seen` were tried before: each open
      square of `ps` not tried yet, in the order first met. */
  function Trials(g: Config, grid: Grid, ps: seq<Pos>, seen: set<Pos>): seq<Pos>
    requires Shaped(g, grid)
    decreases |ps|
  {
    if ps == [] then []
    else if Tryable(g, grid, ps[0]) && ps[0] !in seen then [ps[0]] + Trials(g, grid, ps[1..], seen + {ps[0]})
    else Trials(g, grid, ps[1..], seen)
  }

  /** A square on the grid's edge (the square form of `IsBorder`). */
  predicate OnEdge(g: Config, p: Pos) {
    p.y == 0 || p.y == g.rows - 1 || p.x == 0 || p.x == g.columns - 1
  }

  function Centrals(g: Config, ts: seq<Pos>): seq<Pos>
    decreases |ts|
  {
    if ts == [] then [] else (if OnEdge(g, ts[0]) then [] else [ts[0]]) + Centrals(g, ts[1..])
  }

  function Edges(g: Config, ts: seq<Pos>): seq<Pos>
    decreases |ts|
  {
    if ts == [] then [] else (if OnEdge(g, ts[0]) then [ts[0]] else []) + Edges(g, ts[1..])
  }

  function Reverse(s: seq<Pos>): seq<Pos>
    decreases |s|
  {
    if s == [] then [] else Reverse(s[1..]) + [s[0]]
  }

  /** The order of the children built from squares tried in the order `ts`:
      each central square is put in front, so they end up in reverse trial
      order, followed by the edge squares in trial order. */
  function Arrange(g: Config, ts: seq<Pos>): seq<Pos> {
    Reverse(Centrals(g, ts)) + Edges(g, ts)
  }

  /** The children's squares, in order. */
  function SquareSeq(kids: seq<Node>): (r: seq<Pos>)
    ensures |r| == |kids| && forall k :: 0 <= k < |kids| ==> r[k] == SquareOf(kids[k].action)
  {
    seq(|kids|, k requires 0 <= k < |kids| => SquareOf(kids[k].action))
  }

  /** Every child's subtree stays on the grid. */
  ghost predicate AllWithin(g: Config, kids: seq<Node>) {
    forall k :: 0 <= k < |kids| ==> Within(g, kids[k])
  }

  /** `got` holds exactly the squares already tried and the open squares of `ps`. */
  ghost predicate Tried(g: Config, grid: Grid, ps: seq<Pos>, seen: set<Pos>, got: set<Pos>)
    requires Shaped(g, grid)
  {
    forall p :: p in got <==> p in seen || (p in ps && Tryable(g, grid, p))
  }

  /** What the child list built so far satisfies: its squares are exactly
      the ones already tried, which are all distinct, adjacent and open. */
  predicate Partial(g: Config, grid: Grid, path: seq<Cell>, me: bool, seen: set<Pos>, acc: seq<Node>)
    requires Shaped(g, grid)
  {
    && ChildMoves(g, grid, path, me, acc) && DistinctChildSquares(acc) && BordersLast(g, acc)
    && Squares(acc) == seen
  }

  lemma SquaresAppend(acc: seq<Node>, child: Node)
    ensures Squares(acc + [child]) == Squares(acc) + {SquareOf(child.action)}
  {
    var r := acc + [child];
    forall p | p in Squares(acc) ensures p in Squares(r) {
      var k :| 0 <= k < |acc| && SquareOf(acc[k].action) == p;
      assert r[k] == acc[k];
    }
    assert r[|acc|] == child;
  }

  lemma SquaresPrepend(acc: seq<Node>, child: Node)
    ensures Squares([child] + acc) == Squares(acc) + {SquareOf(child.action)}
  {
    var r := [child] + acc;
    forall p | p in Squares(acc) ensures p in Squares(r) {
      var k :| 0 <= k < |acc| && SquareOf(acc[k].action) == p;
      assert r[k + 1] == acc[k];
    }
    assert r[0] == child;
  }

  /** The requirements on a new child: a move of the side to move on an
      open square next to the path, not tried before. */
  predicate NewChild(g: Config, grid: Grid, path: seq<Cell>, me: bool, seen: set<Pos>, child: Node)
    requires Shaped(g, grid)
  {
    var c := child.action;
    && OnGrid(g, c.i, c.j) && grid[c.i][c.j] == Free
    && c.state == Mark(g, me) && NearPath(SquareOf(c), path)
    && SquareOf(c) !in seen
  }

  lemma ChildMovesConcat(g: Config, grid: Grid, path: seq<Cell>, me: bool, a: seq<Node>, b: seq<Node>)
    requires Shaped(g, grid)
    requires ChildMoves(g, grid, path, me, a) && ChildMoves(g, grid, path, me, b)
    ensures ChildMoves(g, grid, path, me, a + b)
  {
    var r := a + b;
    assert forall k :: 0 <= k < |a| ==> r[k] == a[k];
    assert forall k :: |a| <= k < |r| ==> r[k] == b[k - |a|];
  }

  lemma DistinctConcat(a: seq<Node>, b: seq<Node>)
    requires DistinctChildSquares(a) && DistinctChildSquares(b)
    requires forall k :: 0 <= k < |a| ==> SquareOf(a[k].action) !in Squares(b)
    ensures DistinctChildSquares(a + b)
  {
    var r := a + b;
    forall k, l | 0 <= k < l < |r| ensures SquareOf(r[k].action) != SquareOf(r[l].action) {
      if l < |a| {
        assert r[k] == a[k] && r[l] == a[l];
      } else if k < |a| {
        assert r[k] == a[k] && r[l] == b[l - |a|];
      } else {
        assert r[k] == b[k - |a|] && r[l] == b[l - |a|];
      }
    }
  }

  lemma BordersConcat(g: Config, a: seq<Node>, b: seq<Node>)
    requires BordersLast(g, a) && BordersLast(g, b)
    requires (forall k :: 0 <= k < |a| ==> !IsBorder(g, a[k].action))
          || (forall k :: 0 <= k < |b| ==> IsBorder(g, b[k].action))
    ensures BordersLast(g, a + b)
  {
    var r := a + b;
    assert forall k :: 0 <= k < |a| ==> r[k] == a[k];
    assert forall k :: |a| <= k < |r| ==> r[k] == b[k - |a|];
  }

  /** An edge child goes at the back. */
  lemma AppendChild(g: Config, grid: Grid, path: seq<Cell>, me: bool, seen: set<Pos>, acc: seq<Node>, child: Node)
    requires Shaped(g, grid) && Partial(g, grid, path, me, seen, acc)
    requires NewChild(g, grid, path, me, seen, child) && IsBorder(g, child.action)
    ensures Partial(g, grid, path, me, seen + {SquareOf(child.action)}, acc + [child])
  {
    SquaresAppend(acc, child);
    ChildMovesConcat(g, grid, path, me, acc, [child]);
    assert Squares([child]) == {SquareOf(child.action)};
    DistinctConcat(acc, [child]);
    BordersConcat(g, acc, [child]);
  }

  /** A central child goes at the front. */
  lemma PrependChild(g: Config, grid: Grid, path: seq<Cell>, me: bool, seen: set<Pos>, acc: seq<Node>, child: Node)
    requires Shaped(g, grid) && Partial(g, grid, path, me, seen, acc)
    requires NewChild(g, grid, path, me, seen, child) && !IsBorder(g, child.action)
    ensures Partial(g, grid, path, me, seen + {SquareOf(child.action)}, [child] + acc)
  {
    SquaresPrepend(acc, child);
    ChildMovesConcat(g, grid, path, me, [child], acc);
    DistinctConcat([child], acc);
    BordersConcat(g, [child], acc);
  }

  // ----- the search -----

  /** Grows `n` (a fresh leaf) exhaustively on `grid`, whose cell of `n` is
      marked and whose counter of placed cells is `size`; `me` says whether
      the agent moves next. A finished position gets its terminal score; an
      open one gets a child for every open square next to the path, then is
      valued by alpha-beta over the full window, which may delete children. */
  function CreateTree(g: Config, ct: int, n: Node, anc: seq<Cell>, me: bool, depth: nat, grid: Grid, size: int): (r: Node)
    requires Shaped(g, grid) && OnGrid(g, n.action.i, n.action.j) && n.children == []
    ensures r.action == n.action && r.endState == n.endState
    ensures Within(g, r)
    ensures var st := BoardStatus(g, ct, grid, size, n.action.i, n.action.j);
      && (st != GameState.Open ==> r == n.(score := TerminalScore(g, st, depth)))
      && (st == GameState.Open ==> Expanded(g, [n.action] + anc, me, grid, r))
    decreases FreeSquares(g, grid), 2, 0
  {
    var st := BoardStatus(g, ct, grid, size, n.action.i, n.action.j);
    if st != GameState.Open then n.(score := TerminalScore(g, st, depth))
    else Develop(g, ct, n, anc, me, depth, grid, size)
  }

  /** The open case: a child for every open square next to the path, then
      alpha-beta over the full window from the side to move. */
  function Develop(g: Config, ct: int, n: Node, anc: seq<Cell>, me: bool, depth: nat, grid: Grid, size: int): (r: Node)
    requires Shaped(g, grid) && OnGrid(g, n.action.i, n.action.j) && n.children == []
    ensures r.action == n.action && r.endState == n.endState
    ensures Within(g, r)
    ensures Expanded(g, [n.action] + anc, me, grid, r)
    decreases FreeSquares(g, grid), 1, 0
  {
    var path := [n.action] + anc;
    var kids := Offspring(g, ct, path, me, depth, grid, size);
    var t := AlphaBeta(g, n.(children := kids), !me, MinScore(g), MaxScore(g)).1;
    KeptMoves(g, grid, path, me, kids, t);
    t
  }

  /** The full child list below `path`, before alpha-beta deletes any:
      built from the squares next to the path with none tried yet. */
  function Offspring(g: Config, ct: int, path: seq<Cell>, me: bool, depth: nat, grid: Grid, size: int): (kids: seq<Node>)
    requires Shaped(g, grid)
    ensures ChildMoves(g, grid, path, me, kids) && DistinctChildSquares(kids) && BordersLast(g, kids)
    ensures AllWithin(g, kids)
    ensures SquareSeq(kids) == Arrange(g, Trials(g, grid, Neighbours(path), {}))
    decreases FreeSquares(g, grid), 0, |Neighbours(path)| + 1
  {
    var kids := Build(g, ct, path, me, depth, grid, size, Neighbours(path), {}, []);
    ArrangeFromScratch(g, Trials(g, grid, Neighbours(path), {}), SquareSeq(kids));
    kids
  }

  /** With no children before, the built order is the arranged one. */
  lemma ArrangeFromScratch(g: Config, ts: seq<Pos>, s: seq<Pos>)
    ensures s == Reverse(Centrals(g, ts)) + SquareSeq([]) + Edges(g, ts) ==> s == Arrange(g, ts)
  {
    assert SquareSeq([]) == [];
    assert Reverse(Centrals(g, ts)) + [] == Reverse(Centrals(g, ts));
  }

  /** An expanded open position: each child is a move of the side to move on
      a distinct free square next to the path, central children first; the
      children's squares are a non-empty prefix (when any square could be
      tried) of the tried squares arranged as the search arranges them; and
      the node's score is the min (or max) over its children. */
  predicate Expanded(g: Config, path: seq<Cell>, me: bool, grid: Grid, r: Node)
    requires Shaped(g, grid)
  {
    && ChildMoves(g, grid, path, me, r.children)
    && DistinctChildSquares(r.children) && BordersLast(g, r.children)
    && SquareSeq(r.children) <= Arrange(g, Trials(g, grid, Neighbours(path), {}))
    && (Arrange(g, Trials(g, grid, Neighbours(path), {})) != [] ==> r.children != [])
    && (r.children != [] ==>
          r.score == GameSearch.Fold(!me, GameSearch.InitialValue(g, !me), r.children))
  }

  /** Children that keep the moves of a prefix of a well-formed child list
      form a well-formed child list themselves. */
  lemma KeptMoves(g: Config, grid: Grid, path: seq<Cell>, me: bool, kids: seq<Node>, t: Node)
    requires Shaped(g, grid)
    requires ChildMoves(g, grid, path, me, kids) && DistinctChildSquares(kids) && BordersLast(g, kids)
    requires SquareSeq(kids) == Arrange(g, Trials(g, grid, Neighbours(path), {}))
    requires |t.children| <= |kids| && forall k :: 0 <= k < |t.children| ==> t.children[k].action == kids[k].action
    requires kids != [] ==> t.children != []
    requires t.children != [] ==> t.score == GameSearch.Fold(!me, GameSearch.InitialValue(g, !me), t.children)
    ensures Expanded(g, path, me, grid, t)
  {
    assert SquareSeq(t.children) == SquareSeq(kids)[..|t.children|];
  }

  /** Tries the squares `ps` in order, skipping those off the grid, taken or
      already tried: each tried square is marked for the side to move, its
      subtree is grown one ply deeper, and the mark is lifted again. The
      result has a child exactly for the squares tried here or before. */
  function Build(g: Config, ct: int, path: seq<Cell>, me: bool, depth: nat, grid: Grid, size: int,
                 ps: seq<Pos>, seen: set<Pos>, acc: seq<Node>): (r: seq<Node>)
    requires Shaped(g, grid)
    requires forall p :: p in ps ==> NearPath(p, path)
    requires Partial(g, grid, path, me, seen, acc)
    requires AllWithin(g, acc)
    ensures ChildMoves(g, grid, path, me, r) && DistinctChildSquares(r) && BordersLast(g, r)
    ensures AllWithin(g, r)
    ensures Tried(g, grid, ps, seen, Squares(r))
    ensures var ts := Trials(g, grid, ps, seen);
      SquareSeq(r) == Reverse(Centrals(g, ts)) + SquareSeq(acc) + Edges(g, ts)
    decreases FreeSquares(g, grid), 0, |ps|
  {
    if ps == [] then acc
    else
      var p := ps[0];
      if Tryable(g, grid, p) && p !in seen then
        var s := Mark(g, me);
        MarkShrinksFree(g, grid, p.y, p.x, s);
        var child := CreateTree(g, ct, NewNode(Cell(p.y, p.x, s)), path, !me, depth + 1,
                                Put(grid, p.y, p.x, s), size + 1);
        var acc' := if IsBorder(g, child.action) then acc + [child] else [child] + acc;
        AddChild(g, grid, path, me, seen, acc, child);
        var r := Build(g, ct, path, me, depth, grid, size, ps[1..], seen + {p}, acc');
        TriedHead(g, grid, ps, seen, Squares(r));
        BuildOrderStep(g, grid, ps, seen, acc, child);
        r
      else
        var r := Build(g, ct, path, me, depth, grid, size, ps[1..], seen, acc);
        TriedSkip(g, grid, ps, seen, Squares(r));
        r
  }

  // ----- children are the recursive construction -----

  /** `child` is the subtree the construction grows for its own square: the
      side to move's mark put there on `grid`, one more cell counted, the
      other side to move, one ply deeper. */
  ghost predicate Subtree(g: Config, ct: int, path: seq<Cell>, me: bool, depth: nat, grid: Grid, size: int, child: Node)
    requires Shaped(g, grid)
  {
    var c := child.action;
    && OnGrid(g, c.i, c.j) && c.state == Mark(g, me)
    && child == CreateTree(g, ct, NewNode(c), path, !me, depth + 1, Put(grid, c.i, c.j, c.state), size + 1)
  }

  ghost predicate AllSubtrees(g: Config, ct: int, path: seq<Cell>, me: bool, depth: nat, grid: Grid, size: int, kids: seq<Node>)
    requires Shaped(g, grid)
  {
    forall c :: c in kids ==> Subtree(g, ct, path, me, depth, grid, size, c)
  }

  /** Every child `Build` adds is the recursive construction for its square. */
  lemma {:induction false} BuildRecurses(g: Config, ct: int, path: seq<Cell>, me: bool, depth: nat, grid: Grid, size: int,
                                         ps: seq<Pos>, seen: set<Pos>, acc: seq<Node>)
    requires Shaped(g, grid)
    requires forall p :: p in ps ==> NearPath(p, path)
    requires Partial(g, grid, path, me, seen, acc)
    requires AllWithin(g, acc)
    requires AllSubtrees(g, ct, path, me, depth, grid, size, acc)
    ensures AllSubtrees(g, ct, path, me, depth, grid, size, Build(g, ct, path, me, depth, grid, size, ps, seen, acc))
    decreases |ps|
  {
    if ps != [] {
      var p := ps[0];
      if Tryable(g, grid, p) && p !in seen {
        var s := Mark(g, me);
        var child := CreateTree(g, ct, NewNode(Cell(p.y, p.x, s)), path, !me, depth + 1,
                                Put(grid, p.y, p.x, s), size + 1);
        var acc' := if IsBorder(g, child.action) then acc + [child] else [child] + acc;
        AddChild(g, grid, path, me, seen, acc, child);
        assert Subtree(g, ct, path, me, depth, grid, size, child);
        SubtreesJoin(g, ct, path, me, depth, grid, size, acc, child, IsBorder(g, child.action));
        BuildRecurses(g, ct, path, me, depth, grid, size, ps[1..], seen + {p}, acc');
      } else {
        BuildRecurses(g, ct, path, me, depth, grid, size, ps[1..], seen, acc);
      }
    }
  }

  /** Adding a subtree at either end keeps every child a subtree. */
  lemma SubtreesJoin(g: Config, ct: int, path: seq<Cell>, me: bool, depth: nat, grid: Grid, size: int,
                     acc: seq<Node>, child: Node, atEnd: bool)
    requires Shaped(g, grid)
    requires AllSubtrees(g, ct, path, me, depth, grid, size, acc)
    requires Subtree(g, ct, path, me, depth, grid, size, child)
    ensures AllSubtrees(g, ct, path, me, depth, grid, size, if atEnd then acc + [child] else [child] + acc)
  {
  }

  /** Below an open node, every child alpha-beta keeps is the evaluation of
      the recursive construction for its square: its score, its subtree and
      its terminal state come from one ply down. */
  lemma DevelopRecurses(g: Config, ct: int, n: Node, anc: seq<Cell>, me: bool, depth: nat, grid: Grid, size: int)
    requires Shaped(g, grid) && OnGrid(g, n.action.i, n.action.j) && n.children == []
    ensures var path := [n.action] + anc;
      var kids := Build(g, ct, path, me, depth, grid, size, Neighbours(path), {}, []);
      && AllSubtrees(g, ct, path, me, depth, grid, size, kids)
      && AllEvaluate(g, kids, Develop(g, ct, n, anc, me, depth, grid, size).children, me)
  {
    var path := [n.action] + anc;
    BuildRecurses(g, ct, path, me, depth, grid, size, Neighbours(path), {}, []);
    var kids := Build(g, ct, path, me, depth, grid, size, Neighbours(path), {}, []);
    assert Offspring(g, ct, path, me, depth, grid, size) == kids;
    if kids != [] {
      KeptAreEvaluated(g, n.(children := kids), !me, MinScore(g), MaxScore(g));
    }
  }

  /** `CreateTree` on an open position: its children are as `DevelopRecurses` states. */
  lemma CreateTreeRecurses(g: Config, ct: int, n: Node, anc: seq<Cell>, me: bool, depth: nat, grid: Grid, size: int)
    requires Shaped(g, grid) && OnGrid(g, n.action.i, n.action.j) && n.children == []
    ensures BoardStatus(g, ct, grid, size, n.action.i, n.action.j) == GameState.Open ==>
      var path := [n.action] + anc;
      var kids := Build(g, ct, path, me, depth, grid, size, Neighbours(path), {}, []);
      && AllSubtrees(g, ct, path, me, depth, grid, size, kids)
      && AllEvaluate(g, kids, CreateTree(g, ct, n, anc, me, depth, grid, size).children, me)
  {
    DevelopRecurses(g, ct, n, anc, me, depth, grid, size);
  }

  /** A new child joins the list: at the back on the edge, else at the front. */
  lemma AddChild(g: Config, grid: Grid, path: seq<Cell>, me: bool, seen: set<Pos>, acc: seq<Node>, child: Node)
    requires Shaped(g, grid) && Partial(g, grid, path, me, seen, acc)
    requires NewChild(g, grid, path, me, seen, child)
    requires Within(g, child) && AllWithin(g, acc)
    ensures var acc' := if IsBorder(g, child.action) then acc + [child] else [child] + acc;
      Partial(g, grid, path, me, seen + {SquareOf(child.action)}, acc') && AllWithin(g, acc')
  {
    if IsBorder(g, child.action) {
      AppendChild(g, grid, path, me, seen, acc, child);
      assert forall k :: 0 <= k < |acc| ==> (acc + [child])[k] == acc[k];
    } else {
      PrependChild(g, grid, path, me, seen, acc, child);
      assert forall k :: 0 < k <= |acc| ==> ([child] + acc)[k] == acc[k - 1];
    }
  }

  /** Trying an open head square adds it to the squares tried. */
  lemma TriedHead(g: Config, grid: Grid, ps: seq<Pos>, seen: set<Pos>, got: set<Pos>)
    requires Shaped(g, grid) && |ps| > 0 && Tryable(g, grid, ps[0])
    requires Tried(g, grid, ps[1..], seen + {ps[0]}, got)
    ensures Tried(g, grid, ps, seen, got)
  {
    assert forall p :: p in ps <==> p == ps[0] || p in ps[1..];
  }

  /** Skipping a head square that is taken, off the grid or already tried
      changes nothing. */
  lemma TriedSkip(g: Config, grid: Grid, ps: seq<Pos>, seen: set<Pos>, got: set<Pos>)
    requires Shaped(g, grid) && |ps| > 0 && !(Tryable(g, grid, ps[0]) && ps[0] !in seen)
    requires Tried(g, grid, ps[1..], seen, got)
    ensures Tried(g, grid, ps, seen, got)
  {
    assert forall p :: p in ps <==> p == ps[0] || p in ps[1..];
  }

  /** Trying the open head square of `ps` puts its child where `Arrange`
      expects it. */
  lemma BuildOrderStep(g: Config, grid: Grid, ps: seq<Pos>, seen: set<Pos>, acc: seq<Node>, child: Node)
    requires Shaped(g, grid) && |ps| > 0 && Tryable(g, grid, ps[0]) && ps[0] !in seen
    requires SquareOf(child.action) == ps[0]
    ensures var ts' := Trials(g, grid, ps[1..], seen + {ps[0]});
      var acc' := if IsBorder(g, child.action) then acc + [child] else [child] + acc;
      var ts := Trials(g, grid, ps, seen);
      Reverse(Centrals(g, ts)) + SquareSeq(acc) + Edges(g, ts)
        == Reverse(Centrals(g, ts')) + SquareSeq(acc') + Edges(g, ts')
  {
    var p := ps[0];
    var ts' := Trials(g, grid, ps[1..], seen + {p});
    assert Trials(g, grid, ps, seen) == [p] + ts';
    if IsBorder(g, child.action) {
      assert SquareSeq(acc + [child]) == SquareSeq(acc) + [p];
      EdgeTrial(g, p, ts', SquareSeq(acc));
    } else {
      assert SquareSeq([child] + acc) == [p] + SquareSeq(acc);
      CentralTrial(g, p, ts', SquareSeq(acc));
    }
  }

  /** An edge square tried first goes behind the children so far. */
  lemma EdgeTrial(g: Config, p: Pos, ts: seq<Pos>, built: seq<Pos>)
    requires OnEdge(g, p)
    ensures Reverse(Centrals(g, [p] + ts)) + built + Edges(g, [p] + ts)
         == Reverse(Centrals(g, ts)) + (built + [p]) + Edges(g, ts)
  {
    assert ([p] + ts)[1..] == ts;
    assert Centrals(g, [p] + ts) == [] + Centrals(g, ts) == Centrals(g, ts);
    assert Edges(g, [p] + ts) == [p] + Edges(g, ts);
  }

  /** A central square tried first goes in front of the children so far. */
  lemma CentralTrial(g: Config, p: Pos, ts: seq<Pos>, built: seq<Pos>)
    requires !OnEdge(g, p)
    ensures Reverse(Centrals(g, [p] + ts)) + built + Edges(g, [p] + ts)
         == Reverse(Centrals(g, ts)) + ([p] + built) + Edges(g, ts)
  {
    assert ([p] + ts)[1..] == ts;
    assert Centrals(g, [p] + ts) == [p] + Centrals(g, ts);
    assert ([p] + Centrals(g, ts))[1..] == Centrals(g, ts);
  }
}

=== FILE: dtengine.dfy ===
/** Turn management of the exhaustive engine. The engine keeps the root,
    the moves above it (nearest first) and the current target `ct`, which
    starts at 2 and grows by one, up to the game's target, each time play
    reaches a root without children; the tree is then regrown from that
    root with the larger target. Re-rooting moves to a child without
    trimming the old root. */
module DecisionEngine {
  import opened Types
  import opened Settings
  import opened Nodes
  import opened Candidates
  import opened Alignments
  import opened DecisionTrees

  datatype DTree = DTree(g: Config, ct: int, root: Option<Node>, history: seq<Cell>)

  /** What every engine state keeps: a grid can be drawn, every move in the
      tree and in the history lies on it, and `ct` never passes the larger
      of 2 and the target. */
  ghost predicate Valid(dt: DTree) {
    && dt.g.rows >= 0 && dt.g.columns >= 0
    && 2 <= dt.ct <= Max(2, dt.g.target)
    && (forall k :: 0 <= k < |dt.history| ==> OnGrid(dt.g, dt.history[k].i, dt.history[k].j))
    && (dt.root.Some? ==> Within(dt.g, dt.root.value))
  }

  function NewDTree(g: Config): (r: DTree)
    requires g.rows >= 0 && g.columns >= 0
    ensures Valid(r) && r.root.None? && r.ct == 2 && r.history == []
  {
    DTree(g, 2, None, [])
  }

  function EmptyGrid(g: Config): (r: Grid)
    requires g.rows >= 0 && g.columns >= 0
    ensures Shaped(g, r) && forall x, y :: OnGrid(g, x, y) ==> r[x][y] == Free
  {
    seq(g.rows, _ => seq(g.columns, _ => Free))
  }

  /** Every cell's square is taken on `grid`. */
  predicate AllTaken(g: Config, grid: Grid, cells: seq<Cell>)
    requires Shaped(g, grid)
  {
    forall k :: 0 <= k < |cells| ==> OnGrid(g, cells[k].i, cells[k].j) && grid[cells[k].i][cells[k].j] != Free
  }

  /** `r` agrees with `grid` off the cells' squares. */
  ghost predicate SameElsewhere(g: Config, r: Grid, grid: Grid, cells: seq<Cell>)
    requires Shaped(g, r) && Shaped(g, grid)
  {
    forall x, y :: OnGrid(g, x, y) && (forall k :: 0 <= k < |cells| ==> !(cells[k].i == x && cells[k].j == y)) ==>
      r[x][y] == grid[x][y]
  }

  /** No later cell of `cells` is on the square of `cells[k]`. */
  predicate LastOnSquare(cells: seq<Cell>, k: int)
    requires 0 <= k < |cells|
  {
    forall l :: k < l < |cells| ==> !(cells[l].i == cells[k].i && cells[l].j == cells[k].j)
  }

  /** `grid` with the cells written in order, later writes winning. */
  function Fill(g: Config, grid: Grid, cells: seq<Cell>): (r: Grid)
    requires Shaped(g, grid)
    requires forall k :: 0 <= k < |cells| ==> OnGrid(g, cells[k].i, cells[k].j)
    ensures Shaped(g, r)
    ensures (forall k :: 0 <= k < |cells| ==> cells[k].state != Free) ==> AllTaken(g, r, cells)
    ensures forall k :: 0 <= k < |cells| && OnGrid(g, cells[k].i, cells[k].j) && LastOnSquare(cells, k) ==> r[cells[k].i][cells[k].j] == cells[k].state
    ensures SameElsewhere(g, r, grid, cells)
    decreases |cells|
  {
    if |cells| == 0 then grid
    else
      var c := cells[0];
      assert OnGrid(g, c.i, c.j);
      var grid' := Put(grid, c.i, c.j, c.state);
      var r := Fill(g, grid', cells[1..]);
      FillElsewhere(g, grid, cells, r);
      FillTaken(g, cells, r);
      FillLast(g, cells, r);
      r
  }

  /** Writing the first cell, then the rest, takes every square. */
  lemma FillTaken(g: Config, cells: seq<Cell>, r: Grid)
    requires Shaped(g, r) && |cells| > 0
    requires forall k :: 0 <= k < |cells| ==> OnGrid(g, cells[k].i, cells[k].j)
    requires (forall k :: 0 <= k < |cells| - 1 ==> cells[1..][k].state != Free) ==> AllTaken(g, r, cells[1..])
    requires OnGrid(g, cells[0].i, cells[0].j) && LastOnSquare(cells, 0) ==> r[cells[0].i][cells[0].j] == cells[0].state
    requires forall l :: 0 <= l < |cells| - 1 && OnGrid(g, cells[1..][l].i, cells[1..][l].j) && LastOnSquare(cells[1..], l) ==>
      r[cells[1..][l].i][cells[1..][l].j] == cells[1..][l].state
    ensures (forall k :: 0 <= k < |cells| ==> cells[k].state != Free) ==> AllTaken(g, r, cells)
  {
    if forall k :: 0 <= k < |cells| ==> cells[k].state != Free {
      assert forall k :: 1 <= k < |cells| ==> cells[1..][k - 1] == cells[k];
      if !LastOnSquare(cells, 0) {
        var l :| 0 < l < |cells| && cells[l].i == cells[0].i && cells[l].j == cells[0].j;
        assert cells[1..][l - 1] == cells[l];
      }
    }
  }

  /** The last write to a square is what the square holds. */
  lemma FillLast(g: Config, cells: seq<Cell>, r: Grid)
    requires Shaped(g, r) && |cells| > 0
    requires forall k :: 0 <= k < |cells| ==> OnGrid(g, cells[k].i, cells[k].j)
    requires forall l :: 0 <= l < |cells| - 1 && OnGrid(g, cells[1..][l].i, cells[1..][l].j) && LastOnSquare(cells[1..], l) ==>
      r[cells[1..][l].i][cells[1..][l].j] == cells[1..][l].state
    requires OnGrid(g, cells[0].i, cells[0].j) && LastOnSquare(cells, 0) ==> r[cells[0].i][cells[0].j] == cells[0].state
    ensures forall k :: 0 <= k < |cells| && OnGrid(g, cells[k].i, cells[k].j) && LastOnSquare(cells, k) ==> r[cells[k].i][cells[k].j] == cells[k].state
  {
    forall k | 0 < k < |cells| && LastOnSquare(cells, k)
      ensures r[cells[k].i][cells[k].j] == cells[k].state
    {
      assert cells[1..][k - 1] == cells[k];
      assert LastOnSquare(cells[1..], k - 1);
    }
  }

  /** The squares no cell names keep what `grid` held, and the first cell's
      square, when no later cell names it, holds the first cell's state. */
  lemma FillElsewhere(g: Config, grid: Grid, cells: seq<Cell>, r: Grid)
    requires Shaped(g, grid) && Shaped(g, r) && |cells| > 0
    requires OnGrid(g, cells[0].i, cells[0].j)
    requires SameElsewhere(g, r, Put(grid, cells[0].i, cells[0].j, cells[0].state), cells[1..])
    ensures SameElsewhere(g, r, grid, cells)
    ensures LastOnSquare(cells, 0) ==> r[cells[0].i][cells[0].j] == cells[0].state
  {
    if LastOnSquare(cells, 0) {
      assert forall l :: 0 <= l < |cells[1..]| ==> !(cells[1..][l].i == cells[0].i && cells[1..][l].j == cells[0].j);
    }
    forall x, y | OnGrid(g, x, y) && (forall k :: 0 <= k < |cells| ==> !(cells[k].i == x && cells[k].j == y))
      ensures r[x][y] == grid[x][y]
    {
      assert forall k :: 0 <= k < |cells[1..]| ==> cells[1..][k] == cells[k + 1];
      assert !(cells[0].i == x && cells[0].j == y);
    }
  }

  /** What growing the fresh node `n` at the top of a tree gives on `grid`
      (with `size` cells counted): a position decided there keeps the node
      as a leaf with its terminal score, an open one is expanded with the
      side `me` to move, each kept child being the whole recursive
      construction for its square, as alpha-beta leaves it. */
  ghost predicate Grown(g: Config, ct: int, grid: Grid, size: int, n: Node, anc: seq<Cell>, me: bool, r: Node)
    requires Shaped(g, grid) && OnGrid(g, n.action.i, n.action.j)
  {
    var st := BoardStatus(g, ct, grid, size, n.action.i, n.action.j);
    var path := [n.action] + anc;
    var kids := Build(g, ct, path, me, 0, grid, size, Neighbours(path), {}, []);
    && (st != GameState.Open ==> r == n.(score := TerminalScore(g, st, 0)))
    && (st == GameState.Open ==> Expanded(g, path, me, grid, r))
    && (st == GameState.Open ==>
          AllSubtrees(g, ct, path, me, 0, grid, size, kids) && AllEvaluate(g, kids, r.children, me))
  }

  /** `r` is the childless `root` regrown with current target `ct` on the
      grid of its whole path (`root` then `history`), every path cell
      counted, the side that did not play the root to move. */
  ghost predicate RegrownAt(g: Config, root: Node, history: seq<Cell>, ct: int, r: Node) {
    var path := [root.action] + history;
    && g.rows >= 0 && g.columns >= 0
    && (forall k :: 0 <= k < |path| ==> OnGrid(g, path[k].i, path[k].j))
    && Grown(g, ct, Fill(g, EmptyGrid(g), path), |path|, root, history,
             root.action.state != MyState(g), r)
  }

  /** The opening move grown with target `ct` on the grid holding only it,
      the side to move being the one other than the first player. */
  function FirstRoot(g: Config, ct: int, cell: Cell): (r: Node)
    requires g.rows >= 0 && g.columns >= 0 && OnGrid(g, cell.i, cell.j)
    ensures Within(g, r) && r.action == cell
    ensures Grown(g, ct, Put(EmptyGrid(g), cell.i, cell.j, cell.state), 1, NewNode(cell), [], !g.first, r)
    ensures forall k :: 0 <= k < |r.children| ==>
      var c := r.children[k].action;
      c.state == Mark(g, !g.first) && KingStep(SquareOf(c), cell)
  {
    var grid := Put(EmptyGrid(g), cell.i, cell.j, cell.state);
    CreateTreeRecurses(g, ct, NewNode(cell), [], !g.first, 0, grid, 1);
    CreateTree(g, ct, NewNode(cell), [], !g.first, 0, grid, 1)
  }

  /** The first tree: the root is the opening move, alone on the grid, the
      side to move being the one other than the first player. */
  function GenerateFirst(dt: DTree, cell: Cell): (r: DTree)
    requires Valid(dt) && OnGrid(dt.g, cell.i, cell.j)
    ensures Valid(r) && r.g == dt.g && r.ct == dt.ct && r.history == []
    ensures r.root.Some? && r.root.value.action == cell
    ensures Grown(dt.g, dt.ct, Put(EmptyGrid(dt.g), cell.i, cell.j, cell.state), 1, NewNode(cell), [], !dt.g.first, r.root.value)
    ensures forall k :: 0 <= k < |r.root.value.children| ==>
      var c := r.root.value.children[k].action;
      c.state == Mark(dt.g, !dt.g.first) && KingStep(SquareOf(c), cell)
  {
    DTree(dt.g, dt.ct, Some(FirstRoot(dt.g, dt.ct, cell)), [])
  }

  /** A childless `root` regrown with target `ct` on the grid of its whole
      path, every path cell counted in the size; the side to move is the one
      that did not play the root. */
  function Regrow(g: Config, ct: int, root: Node, history: seq<Cell>): (r: Node)
    requires g.rows >= 0 && g.columns >= 0 && IsLeaf(root) && OnGrid(g, root.action.i, root.action.j)
    requires forall k :: 0 <= k < |history| ==> OnGrid(g, history[k].i, history[k].j)
    ensures Within(g, r) && r.action == root.action
    ensures forall k :: 0 <= k < |r.children| ==>
      r.children[k].action.state == Mark(g, root.action.state != MyState(g))
    ensures RegrownAt(g, root, history, ct, r)
  {
    var path := [root.action] + history;
    assert forall k :: 0 <= k < |path| ==> OnGrid(g, path[k].i, path[k].j);
    var grid := Fill(g, EmptyGrid(g), path);
    var mePlaying := root.action.state == MyState(g);
    CreateTreeRecurses(g, ct, root, history, !mePlaying, 0, grid, |path|);
    CreateTree(g, ct, root, history, !mePlaying, 0, grid, |path|)
  }

  /** Regrows a childless root on the grid of its whole history under the
      current target. */
  function Regenerate(dt: DTree): (r: DTree)
    requires Valid(dt) && dt.root.Some? && IsLeaf(dt.root.value)
    ensures Valid(r) && r.g == dt.g && r.ct == dt.ct && r.history == dt.history
    ensures r.root.Some? && r.root.value.action == dt.root.value.action
    ensures forall k :: 0 <= k < |r.root.value.children| ==>
      r.root.value.children[k].action.state == Mark(dt.g, dt.root.value.action.state != MyState(dt.g))
    ensures RegrownAt(dt.g, dt.root.value, dt.history, dt.ct, r.root.value)
  {
    DTree(dt.g, dt.ct, Some(Regrow(dt.g, dt.ct, dt.root.value, dt.history)), dt.history)
  }

  /** Before choosing, a childless root raises `ct` by one and is regrown
      (`Regenerate` under the raised target), as long as `ct` is below the
      target. */
  function Refresh(dt: DTree): (r: DTree)
    requires Valid(dt) && dt.root.Some?
    ensures Valid(r) && r.g == dt.g && r.history == dt.history
    ensures r.root.Some? && r.root.value.action == dt.root.value.action
    ensures IsLeaf(dt.root.value) && dt.ct < dt.g.target ==>
      && r.ct == dt.ct + 1 && RegrownAt(dt.g, dt.root.value, dt.history, dt.ct + 1, r.root.value)
    ensures !(IsLeaf(dt.root.value) && dt.ct < dt.g.target) ==> r == dt
  {
    if IsLeaf(dt.root.value) && dt.ct < dt.g.target then
      DTree(dt.g, dt.ct + 1, Some(Regrow(dt.g, dt.ct + 1, dt.root.value, dt.history)), dt.history)
    else dt
  }

  /** `b` is the first child of greatest score. */
  predicate FirstBest(cs: seq<Node>, b: int) {
    && 0 <= b < |cs|
    && (forall k :: 0 <= k < |cs| ==> cs[k].score <= cs[b].score)
    && (forall k :: 0 <= k < b ==> cs[k].score < cs[b].score)
  }

  /** `m` is the first child on `move`'s square. */
  predicate FirstMatch(cs: seq<Node>, move: Cell, m: int) {
    && 0 <= m < |cs| && SameSquare(cs[m].action, move)
    && forall k :: 0 <= k < m ==> !SameSquare(cs[k].action, move)
  }

  /** The opponent-move scan from child `k` on, `best` being the first
      child of greatest score so far: it stops at the first child on the
      move's square, and otherwise ends on the first best child. */
  function Scan(cs: seq<Node>, move: Cell, k: nat, best: nat): (r: nat)
    requires best < |cs| && k <= |cs| && best <= k
    requires forall j :: 0 <= j < k ==> !SameSquare(cs[j].action, move)
    requires forall j :: 0 <= j < k ==> cs[j].score <= cs[best].score
    requires forall j :: 0 <= j < best ==> cs[j].score < cs[best].score
    ensures (exists j :: k <= j < |cs| && SameSquare(cs[j].action, move)) ==> FirstMatch(cs, move, r)
    ensures (forall j :: k <= j < |cs| ==> !SameSquare(cs[j].action, move)) ==> FirstBest(cs, r)
    decreases |cs| - k
  {
    if k == |cs| then best
    else if SameSquare(cs[k].action, move) then k
    else Scan(cs, move, k + 1, if cs[k].score > cs[best].score then k else best)
  }

  /** The opponent's move: after the refresh, the root becomes its first
      child on the move's square or, when there is none, its first child of
      greatest score; the old root's move joins the history. */
  function SetOpponentMove(dt: DTree, move: Cell): (r: Result<DTree>)
    requires Valid(dt)
    ensures dt.root.None? ==> r == Err(NoTree)
    ensures dt.root.Some? ==> (r.Err? <==> Refresh(dt).root.value.children == []) && (r.Err? ==> r.error == NoChildren)
    ensures r.Ok? ==>
      var cs := Refresh(dt).root.value.children;
      && Valid(r.value) && r.value.g == dt.g && r.value.ct == Refresh(dt).ct
      && r.value.history == [dt.root.value.action] + dt.history
      && exists b :: (
           && 0 <= b < |cs| && r.value.root == Some(cs[b])
           && ((exists j :: 0 <= j < |cs| && SameSquare(cs[j].action, move)) ==> FirstMatch(cs, move, b))
           && ((forall j :: 0 <= j < |cs| ==> !SameSquare(cs[j].action, move)) ==> FirstBest(cs, b)))
  {
    if dt.root.None? then Err(NoTree)
    else
      var d := Refresh(dt);
      var cs := d.root.value.children;
      if cs == [] then Err(NoChildren)
      else
        var b := Scan(cs, move, 0, 0);
        Ok(DTree(d.g, d.ct, Some(cs[b]), [d.root.value.action] + d.history))
  }

  /** The agent's move: after the refresh, the root becomes its first child
      of greatest score, whose move is returned; the old root's move joins
      the history. */
  method NextMove(dt: DTree) returns (r: Result<(Cell, DTree)>)
    requires Valid(dt)
    ensures dt.root.None? ==> r == Err(NoTree)
    ensures dt.root.Some? ==> (r.Err? <==> Refresh(dt).root.value.children == []) && (r.Err? ==> r.error == NoChildren)
    ensures r.Ok? ==>
      var cs := Refresh(dt).root.value.children;
      && Valid(r.value.1) && r.value.1.g == dt.g && r.value.1.ct == Refresh(dt).ct
      && r.value.1.history == [dt.root.value.action] + dt.history
      && exists b :: FirstBest(cs, b) && r.value.1.root == Some(cs[b]) && r.value.0 == cs[b].action
  {
    if dt.root.None? {
      return Err(NoTree);
    }
    var d := Refresh(dt);
    var cs := d.root.value.children;
    if cs == [] {
      return Err(NoChildren);
    }
    var best := Strongest(cs);
    r := Ok((cs[best].action, DTree(d.g, d.ct, Some(cs[best]), [d.root.value.action] + d.history)));
  }

  /** Scans the children for the first one of greatest score. */
  method Strongest(cs: seq<Node>) returns (best: nat)
    requires |cs| > 0
    ensures FirstBest(cs, best)
  {
    best := 0;
    var k := 0;
    while k < |cs|
      invariant 0 <= best < |cs| && best <= k <= |cs|
      invariant forall j :: 0 <= j < k ==> cs[j].score <= cs[best].score
      invariant forall j :: 0 <= j < best ==> cs[j].score < cs[best].score
    {
      if cs[k].score > cs[best].score {
        best := k;
      }
      k := k + 1;
    }
  }
}

=== FILE: engine.dfy ===
/** Turn management of the heuristic engine: the first tree, re-rooting on
    the opponent's move and on the agent's own choice, and the one-ply
    extension of the surviving leaves. The root's ancestors are kept as a
    trail, nearest first; each trail node has exactly the child that was
    chosen below it, as it stood when it was chosen. */
module GameEngine {
  import opened Types
  import opened Settings
  import opened Nodes
  import opened Boards
  import opened GameSearch
  import opened GameTrees
  import opened Candidates

  datatype Engine = Engine(g: Config, oracle: Oracle, root: Option<Node>, trail: seq<Node>)

  function Actions(trail: seq<Node>): (r: seq<Cell>)
    ensures |r| == |trail| && forall k :: 0 <= k < |trail| ==> r[k] == trail[k].action
  {
    seq(|trail|, k requires 0 <= k < |trail| => trail[k].action)
  }

  /** A board holding exactly the given cells, placed in order. */
  function PlaceAll(b: Board, cells: seq<Cell>): (r: Board)
    ensures r.oracle == b.oracle
    decreases |cells|
  {
    if |cells| == 0 then b
    else PlaceAll(SetAt(b, cells[0].j, cells[0].i, cells[0].state), cells[1..])
  }

  /** The board rebuilt from scratch with the cells of `path`. */
  function Rebuilt(oracle: Oracle, path: seq<Cell>): Board {
    PlaceAll(EmptyBoard(oracle), path)
  }

  /** Rebuilds the board from the path of `n` and grows `n` by `depth` plies,
      the side to move being the one that did not play `n`. A node decided
      on that board becomes a terminal leaf; an open leaf gets a child per
      polled candidate. */
  function ExtendNode(g: Config, oracle: Oracle, n: Node, anc: seq<Cell>, depth: nat): (r: Node)
    ensures r.action == n.action
    ensures n.children == [] ==>
      MarksAlternate(g, r, n.action.state != MyState(g)) && HeightAtMost(r, depth)
    ensures var b := Rebuilt(oracle, [n.action] + anc);
      var st := StatusAt(b, n.action.j, n.action.i);
      && (st != Open ==> r.endState && r.children == n.children && r.score == TerminalScore(g, st))
      && (st == Open && depth > 0 && IsLeaf(n) ==>
            && OnePerPolled(g, b, [n.action] + anc, n.action.state != MyState(g), r.children)
            && Subtrees(g, [n.action] + anc, n.action.state != MyState(g), depth, b,
                        Polled(g, b, [n.action] + anc), r.children))
  {
    var board := Rebuilt(oracle, [n.action] + anc);
    var mePlaying := n.action.state == MyState(g);
    CreateTreeSpawns(g, n, anc, !mePlaying, depth, board);
    CreateTreeRecurses(g, n, anc, !mePlaying, depth, board);
    CreateTree(g, n, anc, !mePlaying, depth, board).0
  }

  /** `r` is `n` with every non-terminal leaf below it, at any depth, grown
      one ply as `ExtendNode` grows it, its ancestors being the path above
      it; terminal leaves stay, and every inner node keeps its move, score,
      flags and children, each of them extended in turn. */
  ghost predicate LeavesExtended(g: Config, oracle: Oracle, n: Node, anc: seq<Cell>, r: Node)
    decreases n
  {
    if IsLeaf(n) then
      (n.endState ==> r == n) && (!n.endState ==> r == ExtendNode(g, oracle, n, anc, 1))
    else
      && r.action == n.action && r.score == n.score
      && r.endState == n.endState && r.alphabeta == n.alphabeta
      && |r.children| == |n.children|
      && forall k :: 0 <= k < |n.children| ==>
           LeavesExtended(g, oracle, n.children[k], [n.action] + anc, r.children[k])
  }

  /** Grows every non-terminal leaf below `n` by one ply; inner nodes keep
      their moves, score and order, and terminal leaves are left alone. */
  function ExtendLeaves(g: Config, oracle: Oracle, n: Node, anc: seq<Cell>): (r: Node)
    ensures r.action == n.action
    ensures IsLeaf(n) && n.endState ==> r == n
    ensures IsLeaf(n) && !n.endState ==> r == ExtendNode(g, oracle, n, anc, 1)
    ensures LeavesExtended(g, oracle, n, anc, r)
    ensures !IsLeaf(n) ==>
      && r.score == n.score && r.endState == n.endState && r.alphabeta == n.alphabeta
      && |r.children| == |n.children|
      && forall k :: 0 <= k < |n.children| ==> r.children[k].action == n.children[k].action
    decreases n
  {
    if IsLeaf(n) && !n.endState then ExtendNode(g, oracle, n, anc, 1)
    else
      n.(children := seq(|n.children|, k requires 0 <= k < |n.children| =>
                           ExtendLeaves(g, oracle, n.children[k], [n.action] + anc)))
  }

  /** An open non-terminal leaf with any in-bounds free square one king step
      from its path gains at least one child. */
  lemma LeafGains(g: Config, oracle: Oracle, n: Node, anc: seq<Cell>, p: Pos)
    requires IsLeaf(n) && !n.endState
    requires StatusAt(Rebuilt(oracle, [n.action] + anc), n.action.j, n.action.i) == Open
    requires NearPath(p, [n.action] + anc) && Eligible(g, Rebuilt(oracle, [n.action] + anc), p)
    ensures |ExtendLeaves(g, oracle, n, anc).children| >= 1
  {
    PolledNonEmpty(g, Rebuilt(oracle, [n.action] + anc), [n.action] + anc, p);
  }

  lemma {:induction false} HeightMonotone(t: Node, a: nat, c: nat)
    requires HeightAtMost(t, a) && a <= c
    ensures HeightAtMost(t, c)
    decreases t
  {
    if t.children != [] {
      forall k | 0 <= k < |t.children| ensures HeightAtMost(t.children[k], c - 1) {
        HeightMonotone(t.children[k], a - 1, c - 1);
      }
    }
  }

  /** Extending the leaves deepens the tree by at most one ply. */
  lemma {:induction false} ExtendLeavesAddsOnePly(g: Config, oracle: Oracle, n: Node, anc: seq<Cell>, d: nat)
    requires HeightAtMost(n, d)
    ensures HeightAtMost(ExtendLeaves(g, oracle, n, anc), d + 1)
    decreases n
  {
    var r := ExtendLeaves(g, oracle, n, anc);
    if IsLeaf(n) && !n.endState {
      HeightMonotone(r, 1, d + 1);
    } else if IsLeaf(n) {
      HeightMonotone(n, d, d + 1);
    } else {
      forall k | 0 <= k < |r.children| ensures HeightAtMost(r.children[k], d) {
        ExtendLeavesAddsOnePly(g, oracle, n.children[k], [n.action] + anc, d - 1);
      }
    }
  }

  function NewEngine(g: Config, oracle: Oracle): (e: Engine)
    ensures e.root == None && e.trail == []
  {
    Engine(g, oracle, None, [])
  }

  /** The stored score of `t` is what fail-soft alpha-beta over the
      (loss, win) window promises for minimax over `t`, the agent
      minimising below its own moves. */
  ghost predicate SoundlyValued(g: Config, t: Node) {
    FailSoft(t.score, Minimax(g, t, t.action.state == MyState(g)), LossScore(g), WinScore(g))
  }

  /** `r` values the tree `t` grew: the same moves, and the same minimax
      value, the agent minimising below its own moves. With `SoundlyValued`
      this ties `r`'s score to the terminal and heuristic leaves of `t`. */
  ghost predicate Revalued(g: Config, r: Node, t: Node) {
    Alike(g, r, t, t.action.state == MyState(g))
  }

  /** Evaluates a created root over the (loss, win) window, the agent
      minimising when the root is its own move: the moves and the minimax
      value stay, and the stored score becomes sound. */
  function Evaluate(g: Config, t: Node): (r: Node)
    ensures Moves(r) == Moves(t) && r.action == t.action
    ensures Minimax(g, r, t.action.state == MyState(g)) == Minimax(g, t, t.action.state == MyState(g))
    ensures SoundlyValued(g, r)
    ensures Revalued(g, r, t)
  {
    var mine := t.action.state == MyState(g);
    AlphaBetaKeepsTree(g, t, mine, LossScore(g), WinScore(g));
    AlphaBetaFailSoft(g, t, mine, LossScore(g), WinScore(g));
    AlphaBeta(g, t, mine, LossScore(g), WinScore(g)).1
  }

  /** `t` is `chosen` grown as the new root, `path` holding the cells
      marked from it upward: a decided leaf stays as it is; a growing leaf
      decided on the rebuilt board becomes a terminal leaf, and an open one
      gets a child per polled candidate; an inner node keeps its children's
      moves in order, and its tree of moves is the one `ExtendLeaves` grows
      below it. */
  ghost predicate Carried(g: Config, oracle: Oracle, chosen: Node, path: seq<Cell>, t: Node) {
    var b := Rebuilt(oracle, path);
    var st := StatusAt(b, chosen.action.j, chosen.action.i);
    var growing := IsLeaf(chosen) && !chosen.endState;
    && t.action == chosen.action
    && |path| > 0
    && (!IsLeaf(chosen) ==> Moves(t) == Moves(ExtendLeaves(g, oracle, chosen, path[1..])))
    && (IsLeaf(chosen) && chosen.endState ==> t == chosen)
    && (growing && st != Open ==> t.endState && IsLeaf(t) && t.score == TerminalScore(g, st))
    && (growing && st == Open ==> OnePerPolled(g, b, path, chosen.action.state != MyState(g), t.children))
    && (!IsLeaf(chosen) ==>
          && |t.children| == |chosen.children|
          && forall k :: 0 <= k < |t.children| ==> t.children[k].action == chosen.children[k].action)
  }

  /** `r` is `chosen` carried forward as the new root: grown as above and
      then soundly valued. */
  ghost predicate Advanced(g: Config, oracle: Oracle, chosen: Node, path: seq<Cell>, r: Node) {
    Carried(g, oracle, chosen, path, r) && SoundlyValued(g, r)
  }

  /** Evaluation keeps what `Carried` says and makes the score sound. */
  lemma EvaluateAdvances(g: Config, oracle: Oracle, chosen: Node, path: seq<Cell>, t: Node)
    requires Carried(g, oracle, chosen, path, t)
    ensures Advanced(g, oracle, chosen, path, Evaluate(g, t))
  {
    var r := Evaluate(g, t);
    SameChildMoves(r, t);
  }

  /** Re-rooting on a chosen child: its non-terminal leaves grow one ply and
      it is re-evaluated. */
  function Advance(g: Config, oracle: Oracle, chosen: Node, anc: seq<Cell>): (r: Node)
    ensures Advanced(g, oracle, chosen, [chosen.action] + anc, r)
    ensures Revalued(g, r, ExtendLeaves(g, oracle, chosen, anc))
  {
    var t := ExtendLeaves(g, oracle, chosen, anc);
    assert ([chosen.action] + anc)[1..] == anc;
    assert Carried(g, oracle, chosen, [chosen.action] + anc, t);
    EvaluateAdvances(g, oracle, chosen, [chosen.action] + anc, t);
    Evaluate(g, t)
  }

  /** Re-rooting on a move the tree did not foresee: a created node for it
      grown `MAX_DEPTH` plies and evaluated. */
  function Plant(g: Config, oracle: Oracle, move: Cell, anc: seq<Cell>): (r: Node)
    ensures Advanced(g, oracle, NewNode(move), [move] + anc, r)
    ensures MarksAlternate(g, r, move.state != MyState(g)) && HeightAtMost(r, MAX_DEPTH)
    ensures Revalued(g, r, ExtendNode(g, oracle, NewNode(move), anc, MAX_DEPTH))
  {
    var t := ExtendNode(g, oracle, NewNode(move), anc, MAX_DEPTH);
    assert Carried(g, oracle, NewNode(move), [move] + anc, t);
    EvaluateAdvances(g, oracle, NewNode(move), [move] + anc, t);
    MovesKeepShape(g, t, Evaluate(g, t), move.state != MyState(g), MAX_DEPTH);
    Evaluate(g, t)
  }

  /** What growing a fresh root on board `b` gives, before evaluation: a
      root decided on `b` is a terminal leaf, an open one has a child per
      polled candidate; marks alternate from the side `me` and no path is
      longer than `MAX_DEPTH`. */
  ghost predicate Sprouted(g: Config, b: Board, root: Cell, me: bool, t: Node) {
    var st := StatusAt(b, root.j, root.i);
    && t.action == root
    && (st != Open ==> t.endState && IsLeaf(t) && t.score == TerminalScore(g, st))
    && (st == Open ==> OnePerPolled(g, b, [root], me, t.children))
    && MarksAlternate(g, t, me) && HeightAtMost(t, MAX_DEPTH)
  }

  /** The first move grown `MAX_DEPTH` plies on the board holding only it,
      the other side to move. */
  function FirstTree(g: Config, oracle: Oracle, firstMove: Cell): (t: Node)
    ensures Sprouted(g, Rebuilt(oracle, [firstMove]), firstMove, !g.first, t)
    ensures var b := Rebuilt(oracle, [firstMove]);
      StatusAt(b, firstMove.j, firstMove.i) == Open ==>
        Subtrees(g, [firstMove], !g.first, MAX_DEPTH, b, Polled(g, b, [firstMove]), t.children)
  {
    var board := Rebuilt(oracle, [firstMove]);
    assert [firstMove] + [] == [firstMove];
    CreateTreeSpawns(g, NewNode(firstMove), [], !g.first, MAX_DEPTH, board);
    CreateTreeRecurses(g, NewNode(firstMove), [], !g.first, MAX_DEPTH, board);
    CreateTree(g, NewNode(firstMove), [], !g.first, MAX_DEPTH, board).0
  }

  /** Evaluation keeps everything `Sprouted` says. */
  lemma SproutedKept(g: Config, b: Board, root: Cell, me: bool, t: Node, v: Node)
    requires Sprouted(g, b, root, me, t)
    requires Moves(v) == Moves(t) && (IsLeaf(t) ==> v == t)
    ensures Sprouted(g, b, root, me, v)
  {
    SameChildMoves(v, t);
    MovesKeepShape(g, t, v, me, MAX_DEPTH);
  }

  /** The first tree: the root is the first move, grown `MAX_DEPTH` plies
      with the other side to move, then evaluated, its score sound for the
      side `first` names. */
  function Generate(e: Engine, firstMove: Cell): (r: Engine)
    ensures r.g == e.g && r.oracle == e.oracle
    ensures r.root.Some? && r.root.value.action == firstMove && r.trail == []
    ensures Sprouted(e.g, Rebuilt(e.oracle, [firstMove]), firstMove, !e.g.first, r.root.value)
    ensures FailSoft(r.root.value.score, Minimax(e.g, r.root.value, e.g.first), LossScore(e.g), WinScore(e.g))
    ensures Alike(e.g, r.root.value, FirstTree(e.g, e.oracle, firstMove), e.g.first)
  {
    Engine(e.g, e.oracle, Some(FirstValued(e.g, e.oracle, firstMove)), [])
  }

  /** The first tree evaluated over the (loss, win) window, the agent
      minimising below the first player's move when it is the first
      player. */
  function FirstValued(g: Config, oracle: Oracle, firstMove: Cell): (v: Node)
    ensures v.action == firstMove
    ensures Sprouted(g, Rebuilt(oracle, [firstMove]), firstMove, !g.first, v)
    ensures FailSoft(v.score, Minimax(g, v, g.first), LossScore(g), WinScore(g))
    ensures Alike(g, v, FirstTree(g, oracle, firstMove), g.first)
  {
    var t := FirstTree(g, oracle, firstMove);
    AlphaBetaKeepsTree(g, t, g.first, LossScore(g), WinScore(g));
    AlphaBetaFailSoft(g, t, g.first, LossScore(g), WinScore(g));
    SproutedKept(g, Rebuilt(oracle, [firstMove]), firstMove, !g.first, t, AlphaBeta(g, t, g.first, LossScore(g), WinScore(g)).1);
    AlphaBeta(g, t, g.first, LossScore(g), WinScore(g)).1
  }

  /** Index of the first child on `move`'s square, if any. */
  function FindChild(cs: seq<Node>, move: Cell, from: nat): (r: Option<nat>)
    requires from <= |cs|
    ensures r.None? ==> forall k :: from <= k < |cs| ==> !SameSquare(cs[k].action, move)
    ensures r.Some? ==>
      && from <= r.value < |cs| && SameSquare(cs[r.value].action, move)
      && forall k :: from <= k < r.value ==> !SameSquare(cs[k].action, move)
    decreases |cs| - from
  {
    if from == |cs| then None
    else if SameSquare(cs[from].action, move) then Some(from)
    else FindChild(cs, move, from + 1)
  }

  /** `e'` has moved its root below `prev`, the root of `e`: the previous
      root keeps exactly one child and joins the trail, and the path from
      the new root is its move followed by the previous path. */
  ghost predicate Rerooted(e: Engine, prev: Node, e': Engine) {
    && e'.g == e.g && e'.oracle == e.oracle && e'.root.Some?
    && |e'.trail| == |e.trail| + 1 && e'.trail[1..] == e.trail
    && |e'.trail[0].children| == 1 && e'.trail[0] == SetSelectedChild(prev, e'.trail[0].children[0])
    && MarkedCells(e'.root.value, e'.trail) == [e'.root.value.action] + MarkedCells(prev, e.trail)
  }

  /** Re-rooting on the first child of `prev` on `move`'s square: the
      previous root keeps exactly that child, and the new root is it
      carried forward, valued as the tree `ExtendLeaves` grows from it. */
  ghost predicate OnMatch(e: Engine, prev: Node, move: Cell, e': Engine)
    requires e'.root.Some?
  {
    exists k :: 0 <= k < |prev.children| && SameSquare(prev.children[k].action, move)
      && (forall j :: 0 <= j < k ==> !SameSquare(prev.children[j].action, move))
      && e'.trail != [] && e'.trail[0].children == [prev.children[k]]
      && e'.root.value.action == prev.children[k].action
      && Advanced(e.g, e.oracle, prev.children[k], MarkedCells(e'.root.value, e'.trail), e'.root.value)
      && Revalued(e.g, e'.root.value, ExtendLeaves(e.g, e.oracle, prev.children[k], [prev.action] + Actions(e.trail)))
  }

  /** Re-rooting on a node created for `move`: the previous root keeps
      exactly it, and the new root is it grown `MAX_DEPTH` plies and valued
      as that tree. */
  ghost predicate OnNewMove(e: Engine, prev: Node, move: Cell, e': Engine)
    requires e'.root.Some?
  {
    && e'.trail != [] && e'.trail[0].children == [NewNode(move)] && e'.root.value.action == move
    && Advanced(e.g, e.oracle, NewNode(move), MarkedCells(e'.root.value, e'.trail), e'.root.value)
    && MarksAlternate(e.g, e'.root.value, move.state != MyState(e.g))
    && HeightAtMost(e'.root.value, MAX_DEPTH)
    && Revalued(e.g, e'.root.value, ExtendNode(e.g, e.oracle, NewNode(move), [prev.action] + Actions(e.trail), MAX_DEPTH))
  }

  /** Re-roots on the opponent's move: to the first child on the same
      square, whose non-terminal leaves then grow one ply; or, when no child
      matches, to a created node for the move grown `MAX_DEPTH` plies. Either
      way the previous root keeps exactly that child, joins the trail, and the
      new root is re-evaluated; `Advanced` says what the new root carries. */
  function SetOpponentMove(e: Engine, move: Cell): (r: Result<Engine>)
    ensures e.root.None? <==> r.Err?
    ensures r.Ok? ==> Rerooted(e, e.root.value, r.value)
    ensures r.Ok? && (exists k :: 0 <= k < |e.root.value.children| && SameSquare(e.root.value.children[k].action, move)) ==>
      OnMatch(e, e.root.value, move, r.value)
    ensures r.Ok? && (forall k :: 0 <= k < |e.root.value.children| ==> !SameSquare(e.root.value.children[k].action, move)) ==>
      OnNewMove(e, e.root.value, move, r.value)
  {
    if e.root.None? then Err(NoTree)
    else
      var prev := e.root.value;
      match FindChild(prev.children, move, 0)
      case None =>
        PlantReroots(e, prev, move);
        Ok(Engine(e.g, e.oracle, Some(Plant(e.g, e.oracle, move, [prev.action] + Actions(e.trail))),
                  [SetSelectedChild(prev, NewNode(move))] + e.trail))
      case Some(k) =>
        AdvanceReroots(e, prev, move, k);
        Ok(Engine(e.g, e.oracle, Some(Advance(e.g, e.oracle, prev.children[k], [prev.action] + Actions(e.trail))),
                  [SetSelectedChild(prev, prev.children[k])] + e.trail))
  }

  /** Re-rooting on a created node for an unmatched move. */
  lemma PlantReroots(e: Engine, prev: Node, move: Cell)
    requires e.root == Some(prev)
    ensures var root := Plant(e.g, e.oracle, move, [prev.action] + Actions(e.trail));
      var e' := Engine(e.g, e.oracle, Some(root), [SetSelectedChild(prev, NewNode(move))] + e.trail);
      Rerooted(e, prev, e') && OnNewMove(e, prev, move, e')
  {
    var root := Plant(e.g, e.oracle, move, [prev.action] + Actions(e.trail));
    TrailPath(root, prev, NewNode(move), e.trail);
    var e' := Engine(e.g, e.oracle, Some(root), [SetSelectedChild(prev, NewNode(move))] + e.trail);
    assert e'.trail[1..] == e.trail;
  }

  /** Re-rooting on the first child on the move's square. */
  lemma AdvanceReroots(e: Engine, prev: Node, move: Cell, k: nat)
    requires e.root == Some(prev)
    requires k < |prev.children| && SameSquare(prev.children[k].action, move)
    requires forall j :: 0 <= j < k ==> !SameSquare(prev.children[j].action, move)
    ensures var root := Advance(e.g, e.oracle, prev.children[k], [prev.action] + Actions(e.trail));
      var e' := Engine(e.g, e.oracle, Some(root), [SetSelectedChild(prev, prev.children[k])] + e.trail);
      Rerooted(e, prev, e') && OnMatch(e, prev, move, e')
  {
    var chosen := prev.children[k];
    var root := Advance(e.g, e.oracle, chosen, [prev.action] + Actions(e.trail));
    TrailPath(root, prev, chosen, e.trail);
    var e' := Engine(e.g, e.oracle, Some(root), [SetSelectedChild(prev, chosen)] + e.trail);
    assert e'.trail[1..] == e.trail;
  }

  /** The cells marked from a new root up: its own move, then the old
      root's, then the trail's. */
  lemma TrailPath(root: Node, prev: Node, chosen: Node, trail: seq<Node>)
    ensures MarkedCells(root, [SetSelectedChild(prev, chosen)] + trail) == [root.action] + ([prev.action] + Actions(trail))
  {
    var t := [SetSelectedChild(prev, chosen)] + trail;
    var m := MarkedCells(root, t);
    var w := [root.action] + ([prev.action] + Actions(trail));
    assert |m| == |w|;
    forall k | 0 <= k < |m| ensures m[k] == w[k] {
      if k >= 2 { assert t[k - 1] == trail[k - 2]; }
    }
  }

  /** The children move selection may pick: the first one, and any child
      whose value the last alpha-beta pass computed. */
  predicate Contender(cs: seq<Node>, k: int) {
    0 <= k < |cs| && (k == 0 || cs[k].alphabeta)
  }

  /** `b` is the first contender of greatest score. */
  predicate IsBestChild(cs: seq<Node>, b: int) {
    && Contender(cs, b)
    && (forall k :: 0 <= k < |cs| && Contender(cs, k) ==> cs[k].score <= cs[b].score)
    && (forall k :: 0 <= k < b && Contender(cs, k) ==> cs[k].score < cs[b].score)
  }

  /** At most one child is the best. */
  lemma BestChildUnique(cs: seq<Node>, a: int, b: int)
    requires IsBestChild(cs, a) && IsBestChild(cs, b)
    ensures a == b
  {
  }

  /** Scans the children from the first, switching only to a flagged child
      of strictly greater score. */
  method BestChild(cs: seq<Node>) returns (b: nat)
    requires |cs| > 0
    ensures IsBestChild(cs, b)
  {
    b := 0;
    var k := 0;
    while k < |cs|
      invariant 0 <= k <= |cs| && b < |cs| && b <= k
      invariant Contender(cs, b)
      invariant forall j :: 0 <= j < k && Contender(cs, j) ==> cs[j].score <= cs[b].score
      invariant forall j :: 0 <= j < b && Contender(cs, j) ==> cs[j].score < cs[b].score
    {
      if cs[k].score > cs[b].score && cs[k].alphabeta {
        b := k;
      }
      k := k + 1;
    }
  }

  /** The agent's move: the best child of the root becomes the root (the
      prev root keeping only it and joining the trail), its non-terminal
      leaves grow one ply, it is re-evaluated (`Advanced`), and its move is
      returned. */
  method NextMove(e: Engine) returns (r: Result<(Cell, Engine)>)
    ensures e.root.None? ==> r == Err(NoTree)
    ensures e.root.Some? && e.root.value.children == [] ==> r == Err(NoChildren)
    ensures e.root.Some? && e.root.value.children != [] ==> r.Ok?
    ensures r.Ok? ==>
      var prev := e.root.value;
      var e' := r.value.1;
      && e'.g == e.g && e'.oracle == e.oracle && e'.root.Some?
      && r.value.0 == e'.root.value.action
      && |e'.trail| == |e.trail| + 1 && e'.trail[1..] == e.trail
      && MarkedCells(e'.root.value, e'.trail) == [r.value.0] + MarkedCells(prev, e.trail)
      && exists b :: IsBestChild(prev.children, b)
          && e'.trail[0] == SetSelectedChild(prev, prev.children[b])
          && r.value.0 == prev.children[b].action
          && Advanced(e.g, e.oracle, prev.children[b], MarkedCells(e'.root.value, e'.trail), e'.root.value)
          && Revalued(e.g, e'.root.value, ExtendLeaves(e.g, e.oracle, prev.children[b], [prev.action] + Actions(e.trail)))
  {
    if e.root.None? {
      return Err(NoTree);
    }
    var prev := e.root.value;
    if |prev.children| == 0 {
      return Err(NoChildren);
    }
    var b := BestChild(prev.children);
    var chosen := prev.children[b];
    var anc := [prev.action] + Actions(e.trail);
    var v := Advance(e.g, e.oracle, chosen, anc);
    TrailPath(v, prev, chosen, e.trail);
    var e' := Engine(e.g, e.oracle, Some(v), [SetSelectedChild(prev, chosen)] + e.trail);
    assert e'.trail[1..] == e.trail;
    r := Ok((v.action, e'));
  }
}

=== FILE: gametree.dfy ===
/** Depth-limited construction of the heuristic engine's tree with forward
    pruning, and the scores it assigns to terminal and depth-exhausted
    nodes. The board is threaded through: every tentative placement is
    undone before the next candidate is tried. */
module GameTrees {
  import opened Types
  import opened Settings
  import opened Nodes
  import opened Boards
  import opened Candidates

  /** Score of a node whose position is decided. */
  function TerminalScore(g: Config, gs: GameState): int {
    if gs == WinState(g) then WinScore(g)
    else if gs == LossState(g) then LossScore(g)
    else DRAW_SCORE
  }

  /** `c`'s square holds `c`'s mark on the board. */
  predicate Placed(b: Board, c: Cell) {
    Pos(c.j, c.i) in b.occ && b.occ[Pos(c.j, c.i)] == c.state
  }

  /** The two distances read by the heuristic: taken with the node's own
      square emptied. */
  function MyDistance(g: Config, b: Board, c: Cell): int {
    MovesToWinAt(RemoveAt(b, c.j, c.i), c.j, c.i, MyState(g))
  }
  function OpponentDistance(g: Config, b: Board, c: Cell): int {
    MovesToWinAt(RemoveAt(b, c.j, c.i), c.j, c.i, OpponentState(g))
  }

  /** Static value of a depth-exhausted node. The node's mark is lifted, the
      distances are read, and the mark is put back. With `p = K - myDist`
      and `o = K - oppDist` the value is `p` when the agent is strictly
      closer to a win (`p > o`), else `-o`. */
  function HeuristicScore(g: Config, b: Board, c: Cell): (r: (int, Board))
    ensures Placed(b, c) ==> r.1 == b
    ensures var my := MyDistance(g, b, c);
      var opp := OpponentDistance(g, b, c);
      if my < opp then r.0 == g.target - my else r.0 == opp - g.target
  {
    var lifted := RemoveAt(b, c.j, c.i);
    var playerScore := g.target - MovesToWinAt(lifted, c.j, c.i, MyState(g));
    var opponentScore := g.target - MovesToWinAt(lifted, c.j, c.i, OpponentState(g));
    var restored := SetAt(lifted, c.j, c.i, c.state);
    assert Placed(b, c) ==> restored == b by {
      if Placed(b, c) { RemoveThenPlace(b, c.j, c.i); }
    }
    (if playerScore > opponentScore then playerScore else -opponentScore, restored)
  }

  /** With distances between 0 and K a heuristic value lies within [-K, K],
      strictly between the loss and win scores, so a decided outcome always
      outweighs a static estimate. */
  lemma HeuristicBelowTerminal(g: Config, b: Board, c: Cell)
    requires 0 <= MyDistance(g, b, c) <= g.target
    requires 0 <= OpponentDistance(g, b, c) <= g.target
    ensures -g.target <= HeuristicScore(g, b, c).0 <= g.target
    ensures LossScore(g) < HeuristicScore(g, b, c).0 < WinScore(g)
  {
  }

  // ----- shape of generated trees -----

  /** Every child of `t` carries the mark of the side to move at `t`, and
      the side alternates level by level. */
  ghost predicate MarksAlternate(g: Config, t: Node, me: bool) {
    forall k :: 0 <= k < |t.children| ==>
      t.children[k].action.state == Mark(g, me) && MarksAlternate(g, t.children[k], !me)
  }

  /** No path from `t` down to a leaf is longer than `d`. */
  ghost predicate HeightAtMost(t: Node, d: nat) {
    t.children == [] ||
    (d > 0 && forall k :: 0 <= k < |t.children| ==> HeightAtMost(t.children[k], d - 1))
  }

  /** The square a candidate names, as a cell carrying `s`. */
  function CellOf(c: Candidate, s: CellState): Cell { Cell(c.y, c.x, s) }

  /** Builds the subtree below `n`, whose ancestors' actions are `anc`
      (nearest first), with `me` telling whether the agent moves next and
      `depth` plies still allowed. Returns the node and the board. */
  function CreateTree(g: Config, n: Node, anc: seq<Cell>, me: bool, depth: nat, b: Board): (r: (Node, Board))
    ensures r.0.action == n.action
    ensures Placed(b, n.action) || depth > 0 ==> r.1 == b
    ensures StatusAt(b, n.action.j, n.action.i) != Open ==>
      && r.0.endState && r.0.children == n.children
      && r.0.score == TerminalScore(g, StatusAt(b, n.action.j, n.action.i))
    ensures StatusAt(b, n.action.j, n.action.i) == Open ==> r.0.endState == n.endState
    ensures StatusAt(b, n.action.j, n.action.i) == Open && depth == 0 ==>
      r.0.children == n.children && r.0.score == HeuristicScore(g, b, n.action).0
    ensures n.children == [] ==> MarksAlternate(g, r.0, me) && HeightAtMost(r.0, depth)
    decreases depth, 2, 0
  {
    var gs := StatusAt(b, n.action.j, n.action.i);
    if gs != Open then
      (n.(score := TerminalScore(g, gs), endState := true), b)
    else if depth == 0 then
      var h := HeuristicScore(g, b, n.action);
      (n.(score := h.0), h.1)
    else
      var e := Grow(g, n, anc, me, depth, b);
      (n.(children := n.children + e.children), e.board)
  }

  /** The candidates the loop polls below a node with path `path`: distinct
      in-bounds free squares next to the path, in polling order, drawn from
      the ranked squares under the loop's stopping rule. */
  function Polled(g: Config, b: Board, path: seq<Cell>): (d: seq<Candidate>)
    ensures forall k :: 0 <= k < |d| ==> Eligible(g, b, PosOf(d[k])) && NearPath(PosOf(d[k]), path)
    ensures forall k, l :: 0 <= k < l < |d| ==> PosOf(d[k]) != PosOf(d[l])
    ensures exists rest :: Consumed(GetInterestingPositions(g, b, path), d, rest, |d|)
  {
    var q := GetInterestingPositions(g, b, path);
    var d := Drain(q, 0).0;
    DrainKeepsSquares(g, b, path, q, d);
    d
  }

  /** The candidates around the path from `n` to the root, expanded in
      urgency order. */
  function Grow(g: Config, n: Node, anc: seq<Cell>, me: bool, depth: nat, b: Board): (r: Expansion)
    requires depth > 0
    ensures r.board == b
    ensures var d := Polled(g, b, [n.action] + anc);
      && |r.children| == |d|
      && forall k :: 0 <= k < |r.children| ==> r.children[k].action == CellOf(d[k], Mark(g, me))
    ensures forall k :: 0 <= k < |r.children| ==>
      && r.children[k].action.state == Mark(g, me)
      && MarksAlternate(g, r.children[k], !me)
      && HeightAtMost(r.children[k], depth - 1)
    ensures forall k :: 0 <= k < |r.children| ==>
      Eligible(g, b, SquareOf(r.children[k].action)) && NearPath(SquareOf(r.children[k].action), [n.action] + anc)
    ensures forall k, l :: 0 <= k < l < |r.children| ==> SquareOf(r.children[k].action) != SquareOf(r.children[l].action)
    decreases depth, 1, 0
  {
    var d := Polled(g, b, [n.action] + anc);
    var e := Expand(g, [n.action] + anc, me, depth, b, d);
    SquaresCarry(g, b, [n.action] + anc, e.children, d);
    e
  }

  /** The new children and the board once the candidate loop is done. */
  datatype Expansion = Expansion(children: seq<Node>, board: Board)

  /** The queue facts a stretch of polling establishes: what was polled and
      what was left make up the queue; polling went in non-decreasing
      urgency and never passed over a more urgent candidate; a candidate
      was polled with `MIN_EVAL` or more children already made only if its
      urgency was at most `SCORE_THRESHOLD`; and candidates were left behind
      only with `MIN_EVAL` children made and every remaining urgency above
      `SCORE_THRESHOLD`. `made` counts the children once polling is over. */
  ghost predicate Consumed(q: seq<Candidate>, polled: seq<Candidate>, rest: seq<Candidate>, made: nat) {
    && multiset(polled) + multiset(rest) == multiset(q)
    && (rest != [] ==> made >= MIN_EVAL && forall c :: c in rest ==> c.score > SCORE_THRESHOLD)
    && (forall k :: 0 <= k < |polled| - 1 ==> polled[k].score <= polled[k + 1].score)
    && (forall k, c :: 0 <= k < |polled| && c in rest ==> polled[k].score <= c.score)
    && (forall k :: 0 <= k < |polled| && made - |polled| + k >= MIN_EVAL ==> polled[k].score <= SCORE_THRESHOLD)
  }

  /** Polling the most urgent candidate first extends what the rest of the
      loop consumed. */
  lemma PollThenConsume(q: seq<Candidate>, c: Candidate, left: seq<Candidate>,
                        polled: seq<Candidate>, rest: seq<Candidate>, made: nat)
    requires multiset(left) + multiset{c} == multiset(q)
    requires forall d :: d in q ==> c.score <= d.score
    requires made - |polled| - 1 >= MIN_EVAL ==> c.score <= SCORE_THRESHOLD
    requires Consumed(left, polled, rest, made)
    ensures Consumed(q, [c] + polled, rest, made)
  {
    var all := [c] + polled;
    assert multiset(all) == multiset{c} + multiset(polled);
    forall d | d in polled || d in rest ensures c.score <= d.score {
      assert d in multiset(left);
      assert d in multiset(q);
    }
    OrderCons(c, polled, rest);
    ThresholdCons(c, polled, made);
  }

  lemma OrderCons(c: Candidate, polled: seq<Candidate>, rest: seq<Candidate>)
    requires forall d :: d in polled || d in rest ==> c.score <= d.score
    requires forall k :: 0 <= k < |polled| - 1 ==> polled[k].score <= polled[k + 1].score
    requires forall k, d :: 0 <= k < |polled| && d in rest ==> polled[k].score <= d.score
    ensures var all := [c] + polled;
      && (forall k :: 0 <= k < |all| - 1 ==> all[k].score <= all[k + 1].score)
      && (forall k, d :: 0 <= k < |all| && d in rest ==> all[k].score <= d.score)
  {
    var all := [c] + polled;
    forall k | 0 <= k < |all| - 1 ensures all[k].score <= all[k + 1].score {
      assert all[k + 1] == polled[k];
      if k > 0 { assert all[k] == polled[k - 1]; }
    }
    forall k, d | 0 <= k < |all| && d in rest ensures all[k].score <= d.score {
      if k > 0 { assert all[k] == polled[k - 1]; }
    }
  }

  lemma ThresholdCons(c: Candidate, polled: seq<Candidate>, made: nat)
    requires made - |polled| - 1 >= MIN_EVAL ==> c.score <= SCORE_THRESHOLD
    requires forall k :: 0 <= k < |polled| && made - |polled| + k >= MIN_EVAL ==> polled[k].score <= SCORE_THRESHOLD
    ensures var all := [c] + polled;
      forall k :: 0 <= k < |all| && made - |all| + k >= MIN_EVAL ==> all[k].score <= SCORE_THRESHOLD
  {
    var all := [c] + polled;
    forall k | 0 <= k < |all| && made - |all| + k >= MIN_EVAL
      ensures all[k].score <= SCORE_THRESHOLD
    {
      if k > 0 { assert all[k] == polled[k - 1]; }
    }
  }

  /** The polling discipline of the candidate loop, `i` children made so
      far: stop when the queue is empty, or when at least `MIN_EVAL`
      children exist and the most urgent remaining candidate scores above
      `SCORE_THRESHOLD`; otherwise poll the most urgent one. Returns the
      polled candidates in order and the ones left. */
  function Drain(q: seq<Candidate>, i: nat): (r: (seq<Candidate>, seq<Candidate>))
    ensures Consumed(q, r.0, r.1, i + |r.0|)
    decreases |q|
  {
    if |q| == 0 then ([], [])
    else if i >= MIN_EVAL && q[FirstMinIndex(q)].score > SCORE_THRESHOLD then
      assert forall c :: c in q ==> c.score > SCORE_THRESHOLD by {
        forall c | c in q ensures c.score > SCORE_THRESHOLD {
          var l :| 0 <= l < |q| && q[l] == c;
        }
      }
      ([], q)
    else
      var polled := Poll(q);
      assert polled.0 == q[FirstMinIndex(q)];
      var more := Drain(polled.1, i + 1);
      PollThenConsume(q, polled.0, polled.1, more.0, more.1, i + 1 + |more.0|);
      ([polled.0] + more.0, more.1)
  }

  /** `kids` has one child per candidate of `ps`, in order: the child stands
      on the candidate's square with the mover's mark, and its subtree
      alternates marks and is at most `depth - 1` deep. */
  ghost predicate Made(g: Config, me: bool, depth: nat, ps: seq<Candidate>, kids: seq<Node>) {
    && depth > 0
    && |kids| == |ps|
    && forall k :: 0 <= k < |kids| ==>
      && SquareOf(kids[k].action) == PosOf(ps[k])
      && kids[k].action == CellOf(ps[k], Mark(g, me))
      && MarksAlternate(g, kids[k], !me)
      && HeightAtMost(kids[k], depth - 1)
  }

  /** A child for the first candidate followed by the children for the rest. */
  lemma MadeCons(g: Config, me: bool, depth: nat, ps: seq<Candidate>, child: Node, kids: seq<Node>)
    requires |ps| > 0 && depth > 0
    requires child.action == CellOf(ps[0], Mark(g, me))
    requires MarksAlternate(g, child, !me) && HeightAtMost(child, depth - 1)
    requires Made(g, me, depth, ps[1..], kids)
    ensures Made(g, me, depth, ps, [child] + kids)
  {
    var all := [child] + kids;
    forall k | 1 <= k < |all|
      ensures all[k] == kids[k - 1] && ps[k] == ps[1..][k - 1]
    {
    }
  }

  /** Makes one child per candidate of `ps`, in order: each candidate's
      square gets the mover's mark, the child's subtree is built one ply
      shallower with the other side to move, and the mark is lifted again. */
  function Expand(g: Config, path: seq<Cell>, me: bool, depth: nat, b: Board, ps: seq<Candidate>): (r: Expansion)
    requires depth > 0
    requires forall k :: 0 <= k < |ps| ==> Eligible(g, b, PosOf(ps[k]))
    ensures r.board == b
    ensures Made(g, me, depth, ps, r.children)
    decreases depth, 0, |ps|
  {
    if |ps| == 0 then Expansion([], b)
    else
      var c := ps[0];
      assert IsFreeAt(b, c.x, c.y) by { assert Eligible(g, b, PosOf(c)); }
      var state := Mark(g, me);
      var placed := SetAt(b, c.x, c.y, state);
      var made := CreateTree(g, NewNode(CellOf(c, state)), path, !me, depth - 1, placed);
      var after := RemoveAt(made.1, c.x, c.y);
      PlaceThenRemove(b, c.x, c.y, state);
      var more := Expand(g, path, me, depth, after, ps[1..]);
      MadeCons(g, me, depth, ps, made.0, more.children);
      Expansion([made.0] + more.children, more.board)
  }

  lemma {:induction false} DistinctOccursOnce(q: seq<Candidate>, c: Candidate)
    requires forall k, l :: 0 <= k < l < |q| ==> PosOf(q[k]) != PosOf(q[l])
    ensures multiset(q)[c] <= 1
    decreases |q|
  {
    if |q| > 0 {
      assert q == [q[0]] + q[1..];
      DistinctOccursOnce(q[1..], c);
      if q[0] == c {
        assert c !in q[1..] by {
          forall l | 0 <= l < |q[1..]| ensures q[1..][l] != c {
            assert q[1..][l] == q[l + 1];
          }
        }
      }
    }
  }

  lemma RepeatedOccursTwice(s: seq<Candidate>, k: nat, l: nat)
    requires k < l < |s| && s[k] == s[l]
    ensures multiset(s)[s[k]] >= 2
  {
    assert s == s[..k] + [s[k]] + s[k + 1..l] + [s[l]] + s[l + 1..];
  }

  /** A sub-bag of a queue with distinct squares has distinct squares and
      only the queue's elements. */
  lemma SubBagOfDistinct(q: seq<Candidate>, d: seq<Candidate>)
    requires multiset(d) <= multiset(q)
    requires forall k, l :: 0 <= k < l < |q| ==> PosOf(q[k]) != PosOf(q[l])
    ensures forall k :: 0 <= k < |d| ==> d[k] in q
    ensures forall k, l :: 0 <= k < l < |d| ==> PosOf(d[k]) != PosOf(d[l])
  {
    forall k | 0 <= k < |d| ensures d[k] in q {
      assert d[k] in multiset(d);
    }
    forall k, l | 0 <= k < l < |d|
      ensures PosOf(d[k]) != PosOf(d[l])
    {
      if PosOf(d[k]) == PosOf(d[l]) {
        assert d[k] in multiset(d) && d[l] in multiset(d);
        var a :| 0 <= a < |q| && q[a] == d[k];
        var c :| 0 <= c < |q| && q[c] == d[l];
        assert a == c;
        RepeatedOccursTwice(d, k, l);
        DistinctOccursOnce(q, d[k]);
      }
    }
  }

  /** Drawn from a queue of distinct eligible squares next to `path`, a
      sub-bag holds only such squares too. */
  lemma DrainKeepsSquares(g: Config, b: Board, path: seq<Cell>, q: seq<Candidate>, d: seq<Candidate>)
    requires forall k :: 0 <= k < |q| ==> Eligible(g, b, PosOf(q[k])) && NearPath(PosOf(q[k]), path)
    requires forall k, l :: 0 <= k < l < |q| ==> PosOf(q[k]) != PosOf(q[l])
    requires multiset(d) <= multiset(q)
    ensures forall k :: 0 <= k < |d| ==> Eligible(g, b, PosOf(d[k])) && NearPath(PosOf(d[k]), path)
    ensures forall k, l :: 0 <= k < l < |d| ==> PosOf(d[k]) != PosOf(d[l])
  {
    SubBagOfDistinct(q, d);
    forall k | 0 <= k < |d|
      ensures Eligible(g, b, PosOf(d[k])) && NearPath(PosOf(d[k]), path)
    {
      var j :| 0 <= j < |q| && q[j] == d[k];
    }
  }

  /** Below an open node with plies left, `CreateTree` appends exactly the
      children `Grow` makes: one per polled candidate, in polling order. */
  lemma CreateTreeGrows(g: Config, n: Node, anc: seq<Cell>, me: bool, depth: nat, b: Board)
    requires StatusAt(b, n.action.j, n.action.i) == Open && depth > 0
    ensures CreateTree(g, n, anc, me, depth, b).0.children == n.children + Grow(g, n, anc, me, depth, b).children
  {
  }

  /** Children standing on the squares of distinct, eligible candidates
      next to the path are themselves on such squares. */
  lemma SquaresCarry(g: Config, b: Board, path: seq<Cell>, kids: seq<Node>, d: seq<Candidate>)
    requires |kids| == |d|
    requires forall k :: 0 <= k < |kids| ==> SquareOf(kids[k].action) == PosOf(d[k])
    requires forall k :: 0 <= k < |d| ==> Eligible(g, b, PosOf(d[k])) && NearPath(PosOf(d[k]), path)
    requires forall k, l :: 0 <= k < l < |d| ==> PosOf(d[k]) != PosOf(d[l])
    ensures forall k :: 0 <= k < |kids| ==>
      Eligible(g, b, SquareOf(kids[k].action)) && NearPath(SquareOf(kids[k].action), path)
    ensures forall k, l :: 0 <= k < l < |kids| ==> SquareOf(kids[k].action) != SquareOf(kids[l].action)
  {
  }

  // ----- growth below an open node -----

  /** `kids` holds one child per candidate polled below `path`, in polling
      order, each on its candidate's square with the mark of the side `me`. */
  ghost predicate OnePerPolled(g: Config, b: Board, path: seq<Cell>, me: bool, kids: seq<Node>) {
    var d := Polled(g, b, path);
    |kids| == |d| && forall k :: 0 <= k < |kids| ==> kids[k].action == CellOf(d[k], Mark(g, me))
  }

  /** A fresh open node with plies left gets exactly the polled children. */
  lemma CreateTreeSpawns(g: Config, n: Node, anc: seq<Cell>, me: bool, depth: nat, b: Board)
    ensures StatusAt(b, n.action.j, n.action.i) == Open && depth > 0 && n.children == [] ==>
      OnePerPolled(g, b, [n.action] + anc, me, CreateTree(g, n, anc, me, depth, b).0.children)
  {
    if StatusAt(b, n.action.j, n.action.i) == Open && depth > 0 && n.children == [] {
      CreateTreeGrows(g, n, anc, me, depth, b);
      assert n.children + Grow(g, n, anc, me, depth, b).children == Grow(g, n, anc, me, depth, b).children;
    }
  }

  /** `kids` holds, for each candidate of `ps` in order, the subtree the
      recursive construction builds below it: the mover's mark put on the
      candidate's square of `b`, the other side to move, one ply fewer. */
  ghost predicate Subtrees(g: Config, path: seq<Cell>, me: bool, depth: nat, b: Board,
                           ps: seq<Candidate>, kids: seq<Node>)
    requires depth > 0
  {
    |kids| == |ps| &&
    forall k :: 0 <= k < |ps| ==>
      kids[k] == CreateTree(g, NewNode(CellOf(ps[k], Mark(g, me))), path, !me, depth - 1,
                            SetAt(b, ps[k].x, ps[k].y, Mark(g, me))).0
  }

  /** Each child the candidate loop makes is the recursive construction on
      the board with its own mark added: the board every later child sees is
      the starting one again. */
  lemma {:induction false} ExpandRecurses(g: Config, path: seq<Cell>, me: bool, depth: nat, b: Board, ps: seq<Candidate>)
    requires depth > 0
    requires forall k :: 0 <= k < |ps| ==> Eligible(g, b, PosOf(ps[k]))
    ensures Subtrees(g, path, me, depth, b, ps, Expand(g, path, me, depth, b, ps).children)
    decreases |ps|
  {
    if |ps| > 0 {
      var c := ps[0];
      assert IsFreeAt(b, c.x, c.y) by { assert Eligible(g, b, PosOf(c)); }
      var state := Mark(g, me);
      var placed := SetAt(b, c.x, c.y, state);
      var made := CreateTree(g, NewNode(CellOf(c, state)), path, !me, depth - 1, placed);
      assert Placed(placed, CellOf(c, state));
      PlaceThenRemove(b, c.x, c.y, state);
      assert RemoveAt(made.1, c.x, c.y) == b;
      ExpandRecurses(g, path, me, depth, b, ps[1..]);
      var more := Expand(g, path, me, depth, b, ps[1..]);
      var all := Expand(g, path, me, depth, b, ps).children;
      assert all == [made.0] + more.children;
      forall k | 1 <= k < |ps|
        ensures all[k] == CreateTree(g, NewNode(CellOf(ps[k], state)), path, !me, depth - 1,
                                     SetAt(b, ps[k].x, ps[k].y, state)).0
      {
        assert all[k] == more.children[k - 1] && ps[1..][k - 1] == ps[k];
      }
    }
  }

  /** Below a fresh open node with plies left, every child is the recursive
      construction for its polled candidate, so its scores, terminal states
      and pruning are those of the construction one ply down. */
  lemma CreateTreeRecurses(g: Config, n: Node, anc: seq<Cell>, me: bool, depth: nat, b: Board)
    ensures StatusAt(b, n.action.j, n.action.i) == Open && depth > 0 && n.children == [] ==>
      Subtrees(g, [n.action] + anc, me, depth, b, Polled(g, b, [n.action] + anc),
               CreateTree(g, n, anc, me, depth, b).0.children)
  {
    if StatusAt(b, n.action.j, n.action.i) == Open && depth > 0 && n.children == [] {
      var path := [n.action] + anc;
      var d := Polled(g, b, path);
      CreateTreeGrows(g, n, anc, me, depth, b);
      ExpandRecurses(g, path, me, depth, b, d);
      assert Grow(g, n, anc, me, depth, b) == Expand(g, path, me, depth, b, d);
      assert n.children + Grow(g, n, anc, me, depth, b).children == Grow(g, n, anc, me, depth, b).children;
    }
  }

  /** Some candidate is always polled when any in-bounds free square lies
      one king step from the path: the loop polls at least `MIN_EVAL`
      times unless the queue runs dry first. */
  lemma PolledNonEmpty(g: Config, b: Board, path: seq<Cell>, p: Pos)
    requires NearPath(p, path) && Eligible(g, b, p)
    ensures |Polled(g, b, path)| >= 1
  {
    InterestingPositionsComplete(g, b, path, p);
    var q := GetInterestingPositions(g, b, path);
    assert |Drain(q, 0).0| >= 1;
  }

  /** Alternation of marks and the height bound depend on the moves only. */
  lemma {:induction false} MovesKeepShape(g: Config, a: Node, b: Node, me: bool, d: nat)
    requires Moves(a) == Moves(b)
    ensures MarksAlternate(g, a, me) ==> MarksAlternate(g, b, me)
    ensures HeightAtMost(a, d) ==> HeightAtMost(b, d)
    decreases a
  {
    MovesByChildren(a, b);
    forall k | 0 <= k < |a.children|
      ensures MarksAlternate(g, a.children[k], !me) ==> MarksAlternate(g, b.children[k], !me)
      ensures d > 0 && HeightAtMost(a.children[k], d - 1) ==> HeightAtMost(b.children[k], d - 1)
    {
      MovesKeepShape(g, a.children[k], b.children[k], !me, if d > 0 then d - 1 else 0);
    }
    SameChildMoves(a, b);
  }
}

=== FILE: matrix.dfy ===
/** The 2-D occupancy grid with a running size counter. Cells are indexed
    `cells[x][y]` with `x` the column and `y` the row; a missing state
    (the code's null) is `None`. */
module Matrices {
  import opened Types

  datatype Matrix = Matrix(columns: int, rows: int, target: int, cells: seq<seq<CellState>>, size: int)

  /** The grid has `columns` columns of `rows` cells each. */
  predicate WellFormed(m: Matrix) {
    && m.columns >= 0 && m.rows >= 0
    && |m.cells| == m.columns
    && forall x :: 0 <= x < |m.cells| ==> |m.cells[x]| == m.rows
  }

  predicate InBounds(m: Matrix, x: int, y: int) {
    0 <= x < m.columns && 0 <= y < m.rows
  }

  /** A new grid: every cell free, size 0. */
  function NewMatrix(columns: nat, rows: nat, target: int): (m: Matrix)
    ensures WellFormed(m) && m.columns == columns && m.rows == rows
    ensures m.size == 0
    ensures forall x, y :: InBounds(m, x, y) ==> m.cells[x][y] == Free
    ensures Consistent(m)
  {
    var m := Matrix(columns, rows, target, seq(columns, _ => seq(rows, _ => Free)), 0);
    AllFreeCountsZero(m.cells);
    m
  }

  /** Storing a mark counts the cell in; a missing or `Free` state clears
      the cell and counts it out, whatever it held before. */
  function SetAt(m: Matrix, x: int, y: int, s: Option<CellState>): (r: Matrix)
    requires WellFormed(m) && InBounds(m, x, y)
    ensures WellFormed(r) && r.columns == m.columns && r.rows == m.rows
    ensures s != None && s.value != Free ==> r.cells[x][y] == s.value && r.size == m.size + 1
    ensures s == None || s.value == Free ==> r.cells[x][y] == Free && r.size == m.size - 1
    ensures forall a, b :: InBounds(m, a, b) && (a, b) != (x, y) ==> r.cells[a][b] == m.cells[a][b]
  {
    if s != None && s.value != Free then
      m.(cells := m.cells[x := m.cells[x][y := s.value]], size := m.size + 1)
    else
      m.(cells := m.cells[x := m.cells[x][y := Free]], size := m.size - 1)
  }

  /** The stored state, or `None` off the grid. */
  function GetAt(m: Matrix, x: int, y: int): (r: Option<CellState>)
    requires WellFormed(m)
    ensures r == None <==> !InBounds(m, x, y)
    ensures InBounds(m, x, y) ==> r == Some(m.cells[x][y])
  {
    if x < 0 || x >= m.columns || y < 0 || y >= m.rows then None
    else Some(m.cells[x][y])
  }

  /** Clears the cell; the size only drops when the cell was occupied. */
  function RemoveAt(m: Matrix, x: int, y: int): (r: Matrix)
    requires WellFormed(m) && InBounds(m, x, y)
    ensures WellFormed(r) && r.columns == m.columns && r.rows == m.rows
    ensures r.cells[x][y] == Free
    ensures r.size == if m.cells[x][y] != Free then m.size - 1 else m.size
    ensures forall a, b :: InBounds(m, a, b) && (a, b) != (x, y) ==> r.cells[a][b] == m.cells[a][b]
  {
    if m.cells[x][y] != Free then
      m.(cells := m.cells[x := m.cells[x][y := Free]], size := m.size - 1)
    else m
  }

  /** The counter; on a consistent grid, the number of occupied cells. */
  function Size(m: Matrix): (r: int)
    ensures Consistent(m) ==> r == Count(m.cells)
  {
    m.size
  }

  // ----- occupancy count -----

  function Occ(s: CellState): nat { if s == Free then 0 else 1 }

  /** Number of non-free cells in one column. */
  function CountColumn(col: seq<CellState>): nat {
    if |col| == 0 then 0 else Occ(col[0]) + CountColumn(col[1..])
  }

  /** Number of non-free cells in the grid. */
  function Count(cells: seq<seq<CellState>>): nat {
    if |cells| == 0 then 0 else CountColumn(cells[0]) + Count(cells[1..])
  }

  /** The size counter agrees with the number of occupied cells. */
  predicate Consistent(m: Matrix) {
    WellFormed(m) && m.size == Count(m.cells)
  }

  lemma {:induction false} AllFreeCountsZero(cells: seq<seq<CellState>>)
    requires forall x, y :: 0 <= x < |cells| && 0 <= y < |cells[x]| ==> cells[x][y] == Free
    ensures Count(cells) == 0
    decreases |cells|
  {
    if |cells| > 0 {
      AllFreeColumn(cells[0]);
      AllFreeCountsZero(cells[1..]);
    }
  }

  lemma {:induction false} AllFreeColumn(col: seq<CellState>)
    requires forall y :: 0 <= y < |col| ==> col[y] == Free
    ensures CountColumn(col) == 0
    decreases |col|
  {
    if |col| > 0 {
      AllFreeColumn(col[1..]);
    }
  }

  lemma {:induction false} CountColumnUpdate(col: seq<CellState>, y: int, s: CellState)
    requires 0 <= y < |col|
    ensures CountColumn(col[y := s]) == CountColumn(col) - Occ(col[y]) + Occ(s)
    decreases |col|
  {
    if y > 0 {
      assert col[y := s][1..] == col[1..][y - 1 := s];
      CountColumnUpdate(col[1..], y - 1, s);
    } else {
      assert col[y := s][1..] == col[1..];
    }
  }

  lemma {:induction false} CountUpdate(cells: seq<seq<CellState>>, x: int, y: int, s: CellState)
    requires 0 <= x < |cells| && 0 <= y < |cells[x]|
    ensures Count(cells[x := cells[x][y := s]]) == Count(cells) - Occ(cells[x][y]) + Occ(s)
    decreases |cells|
  {
    if x > 0 {
      assert cells[x := cells[x][y := s]][1..] == cells[1..][x - 1 := cells[1..][x - 1][y := s]];
      CountUpdate(cells[1..], x - 1, y, s);
    } else {
      assert cells[x := cells[x][y := s]][1..] == cells[1..];
      CountColumnUpdate(cells[0], y, s);
    }
  }

  /** Placing a mark on a free cell keeps the size counter equal to the
      number of occupied cells. */
  lemma SetOnFreeKeepsCount(m: Matrix, x: int, y: int, s: CellState)
    requires Consistent(m) && InBounds(m, x, y)
    requires m.cells[x][y] == Free && s != Free
    ensures Consistent(SetAt(m, x, y, Some(s)))
  {
    CountUpdate(m.cells, x, y, s);
  }

  /** Removing keeps the size counter equal to the number of occupied cells. */
  lemma RemoveKeepsCount(m: Matrix, x: int, y: int)
    requires Consistent(m) && InBounds(m, x, y)
    ensures Consistent(RemoveAt(m, x, y))
  {
    CountUpdate(m.cells, x, y, Free);
  }

  /** A second removal of the same cell changes nothing. */
  lemma RemoveTwiceIsRemoveOnce(m: Matrix, x: int, y: int)
    requires WellFormed(m) && InBounds(m, x, y)
    ensures RemoveAt(RemoveAt(m, x, y), x, y) == RemoveAt(m, x, y)
  {
  }

  /** Clearing through `SetAt` with `Free` drops the counter even on a free
      cell, so the counter then disagrees with the grid. */
  lemma SetFreeOnFreeBreaksCount(m: Matrix, x: int, y: int)
    requires Consistent(m) && InBounds(m, x, y) && m.cells[x][y] == Free
    ensures !Consistent(SetAt(m, x, y, Some(Free)))
  {
    CountUpdate(m.cells, x, y, Free);
  }

  // ----- lines through a cell -----

  /** The whole row `start_y`, element `x` being column `x`. */
  method GetRowAt(m: Matrix, start_x: int, start_y: int) returns (row: seq<CellState>)
    requires WellFormed(m) && 0 <= start_y < m.rows
    ensures |row| == m.columns
    ensures forall x :: 0 <= x < m.columns ==> row[x] == m.cells[x][start_y]
  {
    row := [];
    var x := 0;
    while x < m.columns
      invariant 0 <= x <= m.columns
      invariant |row| == x
      invariant forall k :: 0 <= k < x ==> row[k] == m.cells[k][start_y]
    {
      row := row + [m.cells[x][start_y]];
      x := x + 1;
    }
  }

  /** The whole column `start_x`, element `y` being row `y`. */
  method GetColumnAt(m: Matrix, start_x: int, start_y: int) returns (column: seq<CellState>)
    requires WellFormed(m) && 0 <= start_x < m.columns
    ensures |column| == m.rows
    ensures forall y :: 0 <= y < m.rows ==> column[y] == m.cells[start_x][y]
  {
    column := [];
    var y := 0;
    while y < m.rows
      invariant 0 <= y <= m.rows
      invariant |column| == y
      invariant forall k :: 0 <= k < y ==> column[k] == m.cells[start_x][k]
    {
      column := column + [m.cells[start_x][y]];
      y := y + 1;
    }
  }

  /** The full in-bounds diagonal through the start cell, stepping (+1, +1):
      it begins where the diagonal leaves the grid at column 0 or row 0,
      holds the start cell at index `Min(start_x, start_y)`, and ends at the
      last column or row. */
  method GetMainDiagonalAt(m: Matrix, start_x: int, start_y: int) returns (diag: seq<CellState>)
    requires WellFormed(m) && InBounds(m, start_x, start_y)
    ensures var d := Min(start_x, start_y);
      && |diag| == d + Min(m.columns - start_x, m.rows - start_y)
      && diag[d] == m.cells[start_x][start_y]
      && forall k :: 0 <= k < |diag| ==> diag[k] == m.cells[start_x - d + k][start_y - d + k]
  {
    ghost var d := Min(start_x, start_y);
    var buffer: seq<CellState> := [];
    var i, j := start_x, start_y;
    while i < m.columns && j < m.rows
      invariant start_x <= i <= m.columns && j - i == start_y - start_x && j <= m.rows
      invariant |buffer| == i - start_x
      invariant forall k :: 0 <= k < |buffer| ==> buffer[k] == m.cells[start_x + k][start_y + k]
    {
      buffer := buffer + [m.cells[i][j]];
      i, j := i + 1, j + 1;
    }
    assert |buffer| == Min(m.columns - start_x, m.rows - start_y);
    i, j := start_x - 1, start_y - 1;
    while i >= 0 && j >= 0
      invariant -1 <= i < start_x && j - i == start_y - start_x && j >= -1
      invariant |buffer| == Min(m.columns - start_x, m.rows - start_y) + (start_x - 1 - i)
      invariant forall k :: 0 <= k < |buffer| ==> buffer[k] == m.cells[i + 1 + k][j + 1 + k]
    {
      buffer := [m.cells[i][j]] + buffer;
      i, j := i - 1, j - 1;
    }
    diag := buffer;
  }

  /** The full in-bounds anti-diagonal through the start cell, stepping
      (-1, +1): it begins at the last column or row 0, holds the start cell,
      and ends at column 0 or the last row. */
  method GetSecondaryDiagonalAt(m: Matrix, start_x: int, start_y: int) returns (diag: seq<CellState>)
    requires WellFormed(m) && InBounds(m, start_x, start_y)
    ensures var t := Min(m.columns - start_x, start_y + 1);
      && |diag| == t + Min(start_x, m.rows - 1 - start_y)
      && diag[t - 1] == m.cells[start_x][start_y]
      && forall k :: 0 <= k < |diag| ==> diag[k] == m.cells[start_x + t - 1 - k][start_y - t + 1 + k]
  {
    ghost var t := Min(m.columns - start_x, start_y + 1);
    var buffer: seq<CellState> := [];
    var i, j := start_x, start_y;
    while i < m.columns && j >= 0
      invariant start_x <= i <= m.columns && i + j == start_x + start_y && j >= -1
      invariant |buffer| == i - start_x
      invariant forall k :: 0 <= k < |buffer| ==> buffer[k] == m.cells[i - 1 - k][j + 1 + k]
    {
      buffer := [m.cells[i][j]] + buffer;
      i, j := i + 1, j - 1;
    }
    assert |buffer| == t;
    i, j := start_x - 1, start_y + 1;
    while i >= 0 && j < m.rows
      invariant -1 <= i < start_x && i + j == start_x + start_y && j <= m.rows
      invariant |buffer| == t + (start_x - 1 - i)
      invariant forall k :: 0 <= k < |buffer| ==> buffer[k] == m.cells[start_x + t - 1 - k][start_y - t + 1 + k]
    {
      buffer := buffer + [m.cells[i][j]];
      i, j := i - 1, j + 1;
    }
    diag := buffer;
  }
}

=== FILE: nodes.dfy ===
/** The search-tree vertex. The parent back-reference of the code is not a
    field: a node's ancestors are kept beside it, nearest first, as a list. */
module Nodes {
  import opened Types

  datatype Node = Node(action: Cell, children: seq<Node>, score: int, alphabeta: bool, endState: bool)

  /** A fresh node for `action`: no children, score 0, both flags down. */
  function NewNode(action: Cell): (n: Node)
    ensures n.action == action
    ensures n.children == [] && n.score == 0
    ensures !n.alphabeta && !n.endState
  {
    Node(action, [], 0, false, false)
  }

  /** A leaf is a node with no children to visit. */
  function IsLeaf(n: Node): (r: bool)
    ensures r <==> n.children == []
  {
    |n.children| == 0
  }

  /** The cells marked on the way from `n` up to the root: `n`'s own action
      first, then one action per ancestor, nearest ancestor first. */
  function MarkedCells(n: Node, ancestors: seq<Node>): (r: seq<Cell>)
    ensures |r| == |ancestors| + 1
    ensures r[0] == n.action
    ensures forall k :: 0 <= k < |ancestors| ==> r[k + 1] == ancestors[k].action
    decreases |ancestors|
  {
    if |ancestors| == 0 then [n.action]
    else [n.action] + MarkedCells(ancestors[0], ancestors[1..])
  }

  /** Re-rooting step: the node keeps everything but its children, which
      become exactly the selected one. */
  function SetSelectedChild(n: Node, child: Node): (r: Node)
    ensures r.children == [child]
    ensures r.action == n.action && r.score == n.score
    ensures r.alphabeta == n.alphabeta && r.endState == n.endState
  {
    n.(children := [child])
  }

  /** The moves of a tree with scores and flags stripped: what stays put
      when a tree is re-evaluated. */
  datatype MoveTree = MoveTree(action: Cell, children: seq<MoveTree>)

  ghost function Moves(n: Node): MoveTree
    decreases n
  {
    MoveTree(n.action, seq(|n.children|, k requires 0 <= k < |n.children| => Moves(n.children[k])))
  }

  /** Two trees have the same moves exactly when their roots carry the same
      action and their children have the same moves pairwise. */
  lemma MovesByChildren(a: Node, b: Node)
    ensures Moves(a) == Moves(b) <==>
      && a.action == b.action && |a.children| == |b.children|
      && forall k :: 0 <= k < |a.children| ==> Moves(a.children[k]) == Moves(b.children[k])
  {
    if Moves(a) == Moves(b) {
      forall k | 0 <= k < |a.children| ensures Moves(a.children[k]) == Moves(b.children[k]) {
        assert Moves(a).children[k] == Moves(a.children[k]);
        assert Moves(b).children[k] == Moves(b.children[k]);
      }
    }
  }

  /** Trees with the same moves have children on the same moves, in order. */
  lemma SameChildMoves(a: Node, b: Node)
    requires Moves(a) == Moves(b)
    ensures |a.children| == |b.children|
    ensures forall k :: 0 <= k < |a.children| ==> a.children[k].action == b.children[k].action
  {
    MovesByChildren(a, b);
    forall k | 0 <= k < |a.children| ensures a.children[k].action == b.children[k].action {
      assert Moves(a.children[k]).action == a.children[k].action;
      assert Moves(b.children[k]).action == b.children[k].action;
    }
  }
}

=== FILE: settings.dfy ===
/** The engine's fixed parameters and the constants derived from them.
    `rows` is M, `columns` is N, `target` is K; `first` says whether the
    agent moves first (and so plays P1). */
module Settings {
  import opened Types

  datatype Config = Config(rows: int, columns: int, target: int, first: bool)

  function MyState(g: Config): CellState { if g.first then P1 else P2 }
  function OpponentState(g: Config): CellState { if g.first then P2 else P1 }
  function WinState(g: Config): GameState { if g.first then WinP1 else WinP2 }
  function LossState(g: Config): GameState { if g.first then WinP2 else WinP1 }

  /** The mark placed by the side to move: the agent's when `me` holds. */
  function Mark(g: Config, me: bool): CellState { if me then MyState(g) else OpponentState(g) }

  function MaxScore(g: Config): int { g.rows * g.columns }
  function MinScore(g: Config): int { -(g.rows * g.columns) }

  const MAX_DEPTH: nat := 6
  const MIN_EVAL: nat := 5
  const SCORE_THRESHOLD: int := 2

  function WinScore(g: Config): int { g.target + 1 }
  function LossScore(g: Config): int { -g.target - 1 }
  const DRAW_SCORE: int := 0

  /** In-bounds test of the heuristic engine: `x` is a column, `y` a row. */
  predicate IsValidCell(g: Config, x: int, y: int) {
    0 <= x < g.columns && 0 <= y < g.rows
  }
}

=== FILE: types.dfy ===
/** Shared vocabulary of the (M,N,K)-game engine: cell marks, game states,
    played cells and the failure-carrying result type. */
module Types {

  /** The mark a cell can carry. `Free` is the empty mark. */
  datatype CellState = P1 | P2 | Free

  /** Outcome of the game as seen from a just-played cell. */
  datatype GameState = WinP1 | WinP2 | Open | Draw

  /** A played (or candidate) move: row `i`, column `j`, and the mark placed there. */
  datatype Cell = Cell(i: int, j: int, state: CellState)

  /** Two cells denote the same move when they name the same square. */
  predicate SameSquare(a: Cell, b: Cell) {
    a.i == b.i && a.j == b.j
  }

  datatype Option<+T> = None | Some(value: T)

  /** The ways a public engine call fails where the code would throw. */
  datatype Error = NoTree | NoChildren

  datatype Result<+T> = Ok(value: T) | Err(error: Error)

  function Min(a: int, b: int): int { if a <= b then a else b }
  function Max(a: int, b: int): int { if a >= b then a else b }
}
